=== FILE: README.md ===
# geogenoplot, modelled in Dafny

geogenoplot draws how an environmental variable relates to the genotypes of
one variant across samples. For one run (`plot_main`) it:

- reads the variant's record from a VCF file and builds a sample table with
  one row per sample and the genotype written as `a|b` or `a/b`;
- joins each sample to its latitude and longitude from a reference table;
- samples a raster at the coordinates of the located rows; a row gets the
  raster's value at its location (times a factor), or a missing value when
  it has no location or the raster gives no number for it;
- draws one to three correlation plots of value against genotype category;
- writes the table to a CSV file;
- parses the map limits and draws a map.

This project models the data side of that run as pure functions over
immutable data, and proves what each step guarantees. It models:

- which record is chosen;
- what text each call becomes;
- which coordinates and values each row receives;
- which rows the plot keeps and how it buckets them;
- the ordinal pairing the statistics receive;
- the axis label and captions;
- which files are written, in which order, and which exception stops the run.

Files, one module each:

- `wrappers.dfy`: `Option` and `Result`.
- `seqs.dfy`: order-preserving selection `Filter`.
- `strings.dfy`: Python's `str.split(sep)` as `Split`, and its inverse `Join`.
- `numerals.dfy`: Python's `str(int)`, its strict inverse, and Python's `int(text)`.
- `table.dfy`: variant records, calls, reference rows, table rows and the exceptions.
- `loader.dfy`: `read_vcf_file`.
- `join.dfy`: `add_location`.
- `raster.dfy`: `add_raster_value`. The raster sampler's answer is an input map; the run passes it the request through a sampler function.
- `plot.dfy`: `allele_corr_plot`, short of drawing and of the statistics' numbers.
- `orchestrator.dfy`: `plot_main`. A run is described by the files it writes and the exception that ends it.
- `example.dfy`: a worked unphased case with four samples.

Missing cells (NaN) are `None`. Coordinates and values are `real`. The
exceptions the modelled code raises are `Failure`s:

- `VariantNotFound`, the `ValueError` for an unknown variant ID;
- `IndexOutOfRange`, the `IndexError` for a record with too few calls or no alternate allele;
- `MissingColumn`, the `KeyError` when the plot reads the `value` column of a
  table without rows: that column, like the location columns, is created
  only by assignments row by row;
- `UnboundName`, the `UnboundLocalError` for a name the plot function never bound;
- `StatisticFailed`, an exception raised inside `pearsonr`, `spearmanr` or
  `kruskal`. Those functions are foreign, so whether one raises on a pairing
  is an input of the model, `raises`;
- `InvalidLiteral`, a `ValueError` from `int()` on a map limit.

Three behaviours of the code are easy to miss:

- **The written table keeps the raw genotype text.** Bucketing happens inside
  the plot function on a filtered copy, so the CSV file keeps the loader's
  texts, e.g. `1/0`, not `0/1` (`Orchestrator.WrittenTable`).
- **The Pearson file is named `peason` in the `all` mode.** With the choice
  `all`, the Pearson plot is saved as `<id>.correlation.peason.pdf`. The
  single choice `pearson` writes `<id>.correlation.pearson.pdf`.
- **The pairing is ordered by category.** The statistics receive the
  bucketed rows, in category order. For the samples `0/0, 0/1, 1/1, 1/0`,
  the pairing is ordinals `0, 1, 1, 2` against values `1.0, 2.0, 2.5, 3.0`,
  not in sample order (`Example.ExamplePairing`).

## Model

| member | source | states |
|---|---|---|
| `Loader.FirstMatch` | geogenoplot/src.py:17-27 | The chosen position is the first record whose ID matches. There is none exactly when no record matches. |
| `Loader.ReadVcf` | geogenoplot/src.py:12-38 | A `ValueError` naming the ID exactly when no record carries it. Otherwise the first matching record is loaded and later matches are ignored. |
| `Loader.LoadRecord` | geogenoplot/src.py:27-38 | Loading succeeds exactly when the record has a call for every sample and at least one alternate allele, otherwise `IndexError`. On success it returns the record's REF, its first ALT and one row per sample. |
| `Loader.EncodeGenotype` | geogenoplot/src.py:32-35 | The text is the decimal texts of the two allele indices joined by the phase's separator. It holds the vertical bar exactly when the call is phased and the slash exactly when it is not. |
| `Loader.GenotypeRoundTrip` | geogenoplot/src.py:31-36 | Every call's text reads back as that call. Both allele indices, including negative ones, and the phase survive the encoding. |
| `Loader.GenotypeCanonical` | geogenoplot/src.py:32-35 | Any text that reads as a call is exactly that call's encoding, so encoding and reading are mutual inverses. |
| `Loader.GenotypeTable` | geogenoplot/src.py:30-36 | One row per sample, in sample-list order. Each row holds its sample's id, a genotype text that reads back as the call at the same position, and that call's phase. Coordinates and value are still empty. |
| `Loader.LoadedRows` | geogenoplot/src.py:27-36 | Loading succeeds when the first matching record has a call for every sample and an alternate allele. The loaded table's i-th row then holds the encoding of that record's i-th call. |
| `Numerals.NatToString` | geogenoplot/src.py:33 | `str` of a natural number is a canonical digit string denoting it, with a leading zero only for 0. |
| `Numerals.IntToString` | geogenoplot/src.py:33 | `str` of an integer is digits with a leading minus sign exactly when the integer is negative. |
| `Numerals.DecimalRoundTrip` | geogenoplot/src.py:33 | The strict decimal reading of `str(i)` is `i`. |
| `Numerals.TrimStart` | geogenoplot/src.py:237-238 | `int` drops a leading run of tab, line feed, vertical tab, form feed, carriage return and space, and nothing else. |
| `Numerals.TrimEnd` | geogenoplot/src.py:237-238 | `int` drops a trailing run of tab, line feed, vertical tab, form feed, carriage return and space, and nothing else. |
| `Numerals.PyIntOfDigits` | geogenoplot/src.py:237-238 | `int` reads a digit string, with or without a minus sign, as its decimal value. |
| `Numerals.PyIntRoundTrip` | geogenoplot/src.py:237-238 | `int(str(i)) == i` for every integer. |
| `Strings.Split` | geogenoplot/src.py:237-238 | `str.split` gives at least one piece, and no piece contains the separator. |
| `Strings.JoinSplit` | geogenoplot/src.py:237-238 | Joining the pieces of a split with the separator gives back the text. |
| `Strings.SplitJoin` | geogenoplot/src.py:33-35 | Splitting a join of separator-free pieces gives back the pieces; this is how a genotype text reads back as its two allele indices. |
| `Join.Locate` | geogenoplot/src.py:46-49 | The reference row for a sample is the first in table order with its id. There is none exactly when no row has the id. |
| `Join.AddLocation` | geogenoplot/src.py:41-51 | The same rows in the same order, with only latitude and longitude replaced. Both come from the first matching reference row, or both are missing when none matches. |
| `Raster.CoordRequest` | geogenoplot/src.py:55-61 | The request sent to the sampler has exactly the ids of rows that have a latitude as its keys. |
| `Raster.RequestHoldsLatest` | geogenoplot/src.py:57-59 | A located row's coordinates are in the request unless a later located row with the same id overwrites them. |
| `Raster.AddRasterValue` | geogenoplot/src.py:63-70 | Only the value column changes. A row has a value exactly when the answer holds a number for its id, and that value is the number times the factor. |
| `Raster.NoLatitudeNoValue` | geogenoplot/src.py:55-70 | With distinct sample ids and a sampler answering only requested ids, a row without a latitude gets no value. |
| `Plot.DropMissing` | geogenoplot/src.py:82-83 | The two null filters keep exactly the rows with both a genotype and a value, one point each. |
| `Plot.DropMissingConcat` | geogenoplot/src.py:82-83 | The filters treat each row on its own, so they distribute over concatenation. |
| `Plot.DropMissingSelects` | geogenoplot/src.py:82-83 | Read back as rows, the points are exactly the rows with both cells present, in input order and with their multiplicities. |
| `Plot.Normalize` | geogenoplot/src.py:92-98 | The eight listed genotype texts map into the three unphased categories. Every other text has none. |
| `Plot.NormalizeBiallelic` | geogenoplot/src.py:92-98 | A call whose alleles are both 0 or 1 falls, in either phase, into the category of its alternate-allele count. |
| `Plot.NormalizedTextParses` | geogenoplot/src.py:92-98 | Every text with a category reads as a biallelic call of that category. |
| `Plot.BiallelicTextNormalizes` | geogenoplot/src.py:92-98 | Every text reading as a biallelic call gets that call's category. |
| `Plot.NormalizeIsDosage` | geogenoplot/src.py:92-98 | A text's category is the alternate-allele count of the biallelic call it reads as. It has none when it does not read as a biallelic call, e.g. a missing allele or a second alternate allele. |
| `Plot.Group` | geogenoplot/src.py:92-98 | Every row of a category's group carries that category's label. |
| `Plot.GroupIsSelection` | geogenoplot/src.py:92-98 | A category's group is the input rows whose text maps to it, in input order, relabelled. |
| `Plot.GroupSizes` | geogenoplot/src.py:92-99 | The three groups together hold exactly as many rows as have a category. |
| `Plot.Bucket` | geogenoplot/src.py:88-99 | Bucketing keeps one row per input row with a category, each labelled with one of the three categories. |
| `Plot.BucketOrdered` | geogenoplot/src.py:99 | Bucketed rows come in category order: all `0/0`, then all `0/1`, then all `1/1`. |
| `Plot.BucketSelection` | geogenoplot/src.py:99 | Any selection from the bucketed rows is the concatenation of the same selection from each group in turn. |
| `Plot.BucketRegroups` | geogenoplot/src.py:92-99 | A category's rows in the bucketing are exactly the input rows of that category, in input order, relabelled. |
| `Plot.Ordinal` | geogenoplot/src.py:170-173 | The ordinal of a category is its position on the x axis. |
| `Plot.OrdinalPairing` | geogenoplot/src.py:170-174 | The pairing has one entry per plotted row. Each entry pairs the index of the row's category with the row's value. |
| `Plot.PairingOrdered` | geogenoplot/src.py:170-174 | On bucketed rows the ordinals handed to the statistic never decrease. |
| `Plot.XLabel` | geogenoplot/src.py:158-162 | The label is exactly `Genotype` when either allele is missing. Otherwise it is `Genotype (Ref: `, the reference allele, `, Alt: `, the alternate allele and a closing parenthesis. |
| `Plot.SubtitleTemplate` | geogenoplot/src.py:183-194 | A caption exists exactly for `pearson`, `spearman` and `kruskal`. It is the statistic's name capitalised, then `correlation` (`statistic` for Kruskal), then the two numbers. |
| `Plot.PlotRows` | geogenoplot/src.py:82-99 | Phased, the drawn rows are the input rows with both a genotype and a value, in input order and with their multiplicities. Unphased, every drawn row has one of the three categories, the rows come in category order, and each category holds exactly the complete input rows of that category, in input order. |
| `Plot.CorrelationPlot` | geogenoplot/src.py:73-203 | The plot is drawn exactly when phased, or when the trendline is on, the statistic is one of the three and it does not raise on the pairing. Unphased without a trendline it fails on the unbound `x_list`, with an unknown statistic on the unbound caption, and with a raising statistic with that statistic's error. A drawn plot has the four phased or three unphased categories, x-limits half a category beyond either end, the filtered (and, unphased, bucketed) rows and the labels. Phased: no caption or pairing. Unphased: the statistic's caption, and the pairing of each row's category index with its value. |
| `Orchestrator.CorrelationJobs` | geogenoplot/src.py:220-229 | `all` draws pearson, spearman and kruskal in that order, the first saved under the name `peason`. Any other choice draws one plot named after it. |
| `Orchestrator.ParseAll` | geogenoplot/src.py:237-238 | The list comprehension succeeds exactly when every piece parses, giving the values in order. Otherwise it raises on the first piece that does not parse. |
| `Orchestrator.ParseLimits` | geogenoplot/src.py:237-238 | A limit option parses exactly when `int` accepts every comma-separated piece, and then gives one value per piece, in order. |
| `Orchestrator.LimitsRoundTrip` | geogenoplot/src.py:237-238 | Two integers written with a comma between them read back as those two integers. |
| `Orchestrator.DefaultLimits` | geogenoplot/cli.py:30-31 | The default latitude limits `-37,51` and longitude limits `-20,95` parse to those integer pairs. |
| `Orchestrator.Enrich` | geogenoplot/src.py:215-218 | The join and the raster pass keep every row, in order, with its id, genotype text and phase. |
| `Orchestrator.WrittenTable` | geogenoplot/src.py:215-231 | The written table has one row per sample, in order, each with the raw encoding of its call in the first matching record. |
| `Orchestrator.DrawPlots` | geogenoplot/src.py:220-229 | Plots are saved in job order. The run stops at the first plot that fails, with that plot's error, after saving exactly the plots before it. |
| `Orchestrator.DrawnAll` | geogenoplot/src.py:220-229 | All plots are saved exactly when every drawing succeeds. Then every plot file is written in job order. |
| `Orchestrator.Draw` | geogenoplot/src.py:82 | A plot of the run fails with `KeyError` on `value` when the table has no rows. Otherwise it is drawn exactly when its names are bound and its statistic call, if made, returns. |
| `Orchestrator.PlotsBind` | geogenoplot/src.py:220-229 | Every plot of a run binds its names exactly when the run is phased, or has the trendline on and a known choice. |
| `Orchestrator.PlotsOutcome` | geogenoplot/src.py:220-229 | A run's plots all succeed exactly when the table has rows, the plots bind their names and every statistic call returns. They then write every plot file in job order. |
| `Orchestrator.Finish` | geogenoplot/src.py:231-252 | A failed plot ends the run as it is. Otherwise the table is written, and the run completes exactly when both parsed limits are values, writing the map last. When a limit does not parse, the plots and the table stay written, and the longitude error is reported before the latitude one. |
| `Orchestrator.Run` | geogenoplot/src.py:220-252 | After loading, the files written are always a first part of the complete list (plots, table, map), and all of it when the run completes. A table without rows fails with `KeyError` on `value` before anything is written. |
| `Orchestrator.RunComplete` | geogenoplot/src.py:220-252 | Once the variant is loaded, the run completes exactly when the table has rows, the plots bind their names, every statistic call returns and both limits parse. Then it writes the plots, the table and the map in that order. |
| `Orchestrator.PlotMain` | geogenoplot/src.py:213-252 | An ID no record carries ends the run with `ValueError` and no files. Every run writes a first part of the complete file list, and all of it when it completes. |
| `Orchestrator.NotFoundWritesNothing` | geogenoplot/src.py:213-215 | An ID no record carries ends the run with a `ValueError` before any file is written. |
| `Orchestrator.CompleteRun` | geogenoplot/src.py:213-252 | A run completes exactly when the variant loads with at least one sample, the plots bind their names, every statistic call returns and both limits parse. It then writes the correlation plots, the table and the map, in that order. |
| `Orchestrator.UnphasedWithoutTrendline` | geogenoplot/src.py:82-192 | Unphased with the trendline off and any known choice, a run never writes a file. It fails with the loader's error; once loaded, with `KeyError` on `value` when there are no samples, and otherwise on the unbound `x_list`. |
| `Orchestrator.NoSamplesNoFiles` | geogenoplot/src.py:41-82 | A variant file without samples never writes a file: the run fails with the loader's error, or else with `KeyError` on `value` in its first plot. |
| `Orchestrator.RunUnbound` | geogenoplot/src.py:82-192 | Once loaded, the same run fails in its first plot, with nothing written. |
| `Orchestrator.FewRowsPearsonFails` | geogenoplot/src.py:183-184 | When `pearsonr` raises on fewer than two rows, an unphased run with the trendline on that asks for Pearson, alone or within `all`, and plots fewer than two rows fails in its first plot with nothing written. |
| `Orchestrator.AllStatisticsFiles` | geogenoplot/src.py:220-251 | A complete `all` run writes five files: the `peason`, `spearman` and `kruskal` plots, the table and the map. |
| `Orchestrator.PearsonFileDependsOnChoice` | geogenoplot/src.py:222-229 | The Pearson plot of `all` and the Pearson plot of the single `pearson` choice have different file names. |
| `Orchestrator.OutputNamesDistinct` | geogenoplot/src.py:220-251 | No two files of a complete run have the same name, so none overwrites another. |
| `Orchestrator.UnvaluedRowsNotPlotted` | geogenoplot/src.py:82-83 | When every row without a latitude also lacks a value, dropping those rows first changes nothing the plot sees. |
| `Orchestrator.UnlocatedNeverPlotted` | geogenoplot/src.py:54-83 | With distinct sample ids and a sampler answering only requested ids, unlocated samples never reach the plot: the plotted rows are those of the located samples alone. |
| `Example.ExampleGenotypeText` | geogenoplot/src.py:31-98 | The call 1/0 is written `1/0` to the table, but the plot files it under `0/1`. |
| `Example.ExampleGroups` | geogenoplot/src.py:92-98 | For the samples `0/0, 0/1, 1/1, 1/0`, the groups are one `0/0`, two `0/1` (in sample order) and one `1/1`. |
| `Example.ExamplePairing` | geogenoplot/src.py:170-174 | The same samples pair ordinals `0, 1, 1, 2` with values `1.0, 2.0, 2.5, 3.0`. |
| `Example.ExampleLimitSeparator` | geogenoplot/src.py:237-238 | `int` rejects a limit led by the file separator U+001C, which `str.strip` would remove. |

## Left out

- The VCF parsing is left out: the model takes the file's records and sample list as inputs. Only diploid calls (two alleles and a phase flag) are modelled.
- The raster sampling call is left out: it is an input function from the request to a map from sample id to an optional number. The value column's type is assumed numeric.
- Reading the reference CSV is left out, including pandas' type inference for the `sample_id` column: ids are compared as strings.
- Drawing is left out: box plots, strip plots, text placement, the figure size, `plt.show` and the PDF bytes. A figure is its categories, x-limits, rows, labels, caption template and pairing.
- The trendline fit is left out. It is inside `try/except` and cannot end the run.
- The statistics' numbers are left out (floating-point library code). When each statistic raises is an input, `raises`; only `Orchestrator.FewRowsPearsonFails` fixes one case of it, `pearsonr` on fewer than two rows. The caption is kept as its template with the two format directives, and the pairing as the statistic's input. The `kruskal(x_list, y_list)` call treats the ordinals and the values as two samples. Only what it is given is modelled.
- The map data frame (lines 233-235) and `scatter_map_ploter` are left out. Only the parsing of the two limit options and the map file name are modelled.
- `Orchestrator.Finish` assumes that `scatter_map_ploter` and `fig.savefig` (src.py:242-252) return for any parsed limits. A limit option that parses to a list of one or three numbers, such as `--lat 5`, counts as complete in the model, whatever the map renderer does with it.
- `Orchestrator.RunComplete` makes the same assumption about the map renderer and `fig.savefig`, so its completion condition omits their failures.
- `Orchestrator.CompleteRun` makes the same assumption about the map renderer and `fig.savefig`, so its completion condition omits their failures.
- The CSV writer is left out. The written table is the enriched table, rows and cells, not its text.
- `warnings.filterwarnings`, the command-line parsing and the packaging script are left out. The option values are a datatype.
- `Numerals.PyInt` is left out as a row of its own and models ASCII only. Around the digits it skips tab, line feed, vertical tab, form feed, carriage return and space, as `int` does; the information separators U+001C to U+001F are rejected. Python's `int` also accepts non-ASCII white space and Unicode decimal digits, which the model rejects.
- `Raster.NoLatitudeNoValue` assumes distinct sample ids and a sampler that answers only for requested ids. The code does not check either.
- `Orchestrator.UnlocatedNeverPlotted` makes the same two assumptions, the second as a property of the sampler function, for the same reason.
- `Plot.CorrelationPlot` gives the phased plot the filtered rows as they are. Rows whose text is not one of the four phased categories are still among its points, whereas seaborn draws only the listed categories.

=== FILE: example.dfy ===
/** A worked case of the unphased plot: four located samples with calls
    0/0, 0/1, 1/1 and 1/0, sampled at 1.0, 2.0, 3.0 and 2.5. */
module Example {
  import opened Wrappers
  import opened Table
  import Loader
  import Numerals
  import Plot

  const Input: seq<Plot.Point> :=
    [Plot.Point("0/0", 1.0), Plot.Point("0/1", 2.0), Plot.Point("1/1", 3.0), Plot.Point("1/0", 2.5)]

  /** The sample with call 1/0 keeps the text `1/0` in the table, while the
      plot files it under `0/1`. */
  lemma ExampleGenotypeText()
    ensures Loader.EncodeGenotype(Call(1, 0, false)) == "1/0"
    ensures Plot.Normalize("1/0") == Some("0/1")
  {
    assert Numerals.IntToString(0) == "0" && Numerals.IntToString(1) == "1";
  }

  lemma ExampleGroups()
    ensures Plot.Group(Input, "0/0") == [Plot.Point("0/0", 1.0)]
    ensures Plot.Group(Input, "0/1") == [Plot.Point("0/1", 2.0), Plot.Point("0/1", 2.5)]
    ensures Plot.Group(Input, "1/1") == [Plot.Point("1/1", 3.0)]
  {
    assert Plot.Normalize("0/0") == Some("0/0");
    assert Plot.Normalize("0/1") == Some("0/1");
    assert Plot.Normalize("1/1") == Some("1/1");
    assert Plot.Normalize("1/0") == Some("0/1");
    var s3, s2, s1 := Input[3..], Input[2..], Input[1..];
    assert s3[1..] == [] && s2[1..] == s3 && s1[1..] == s2 && Input[1..] == s1;
    assert Plot.Group(s3, "0/0") == [] && Plot.Group(s3, "0/1") == [Plot.Point("0/1", 2.5)] && Plot.Group(s3, "1/1") == [];
    assert Plot.Group(s2, "0/0") == [] && Plot.Group(s2, "0/1") == [Plot.Point("0/1", 2.5)];
    assert Plot.Group(s2, "1/1") == [Plot.Point("1/1", 3.0)];
    assert Plot.Group(s1, "0/0") == [];
    assert Plot.Group(s1, "0/1") == [Plot.Point("0/1", 2.0), Plot.Point("0/1", 2.5)];
    assert Plot.Group(s1, "1/1") == [Plot.Point("1/1", 3.0)];
  }

  /** `Plot.Bucket` concatenates these three groups. Bucketing regroups the
      1/0 sample with 0/1, so the statistic pairs the
      ordinals 0, 1, 1, 2 with the values 1.0, 2.0, 2.5, 3.0. */
  lemma ExamplePairing()
    ensures Plot.OrdinalPairing(Plot.Group(Input, "0/0") + Plot.Group(Input, "0/1") + Plot.Group(Input, "1/1"))
      == Plot.Pairing([0, 1, 1, 2], [1.0, 2.0, 2.5, 3.0])
  {
    ExampleGroups();
    PairingOf(Plot.Group(Input, "0/0") + Plot.Group(Input, "0/1") + Plot.Group(Input, "1/1"));
  }

  lemma PairingOf(pts: seq<Plot.Point>)
    requires pts == [Plot.Point("0/0", 1.0), Plot.Point("0/1", 2.0), Plot.Point("0/1", 2.5), Plot.Point("1/1", 3.0)]
    ensures Plot.OrdinalPairing(pts) == Plot.Pairing([0, 1, 1, 2], [1.0, 2.0, 2.5, 3.0])
  {
    assert Plot.Ordinal("0/0") == 0 && Plot.Ordinal("0/1") == 1 && Plot.Ordinal("1/1") == 2;
    var p := Plot.OrdinalPairing(pts);
    assert p.ordinals[0] == 0 && p.ordinals[1] == 1 && p.ordinals[2] == 1 && p.ordinals[3] == 2;
    assert p.ordinals == [0, 1, 1, 2];
    assert p.values == [1.0, 2.0, 2.5, 3.0];
  }

  /** `int` does not skip the file separator U+001C, so `--lat "\x1c5,51"`
      is rejected. */
  lemma ExampleLimitSeparator()
    ensures Numerals.PyInt([28 as char] + "5") == None
  {
    var separated := [28 as char] + "5";
    assert !Numerals.IsSpace(separated[0]) && !Numerals.IsSpace(separated[1]);
    Numerals.TrimUnspaced(separated);
    assert !Numerals.IsGroupedDigits(separated);
  }
}

=== FILE: join.dfy ===
/** The coordinate join (`add_location`): every row takes its latitude and
    longitude from the first reference row with the same sample id. */
module Join {
  import opened Wrappers
  import opened Table

  /** The first reference row, in table order, for sample `id`. */
  function Locate(refs: seq<GeoRef>, id: string): (r: Option<GeoRef>)
    ensures r.None? <==> forall k | 0 <= k < |refs| :: refs[k].sampleId != id
    ensures r.Some? ==> exists k | 0 <= k < |refs| ::
      refs[k] == r.value && refs[k].sampleId == id && forall j | 0 <= j < k :: refs[j].sampleId != id
    decreases |refs|
  {
    if |refs| == 0 then None
    else if refs[0].sampleId == id then Some(refs[0])
    else
      var r := Locate(refs[1..], id);
      assert r.Some? ==> exists k | 0 <= k < |refs[1..]| ::
        refs[1..][k] == r.value && refs[1..][k].sampleId == id && forall j | 0 <= j < k :: refs[1..][j].sampleId != id;
      assert r.Some? ==> exists k | 1 <= k < |refs| ::
        refs[k] == r.value && refs[k].sampleId == id && forall j | 0 <= j < k :: refs[j].sampleId != id;
      r
  }

  /** One row after the join: both coordinates from the first matching
      reference row, or both missing when the sample is absent. */
  function LocateRow(row: Sample, refs: seq<GeoRef>): Sample {
    match Locate(refs, row.sampleId)
    case Some(g) => row.(latitude := g.latitude, longitude := g.longitude)
    case None => row.(latitude := None, longitude := None)
  }

  /** `add_location`: the same rows in the same order, with only the two
      coordinate columns replaced. */
  function AddLocation(rows: seq<Sample>, refs: seq<GeoRef>): (r: seq<Sample>)
    ensures |r| == |rows|
    ensures forall i | 0 <= i < |r| ::
      r[i].sampleId == rows[i].sampleId && r[i].genotype == rows[i].genotype
      && r[i].phased == rows[i].phased && r[i].value == rows[i].value
    ensures forall i | 0 <= i < |r| && (forall k | 0 <= k < |refs| :: refs[k].sampleId != rows[i].sampleId) ::
      r[i].latitude.None? && r[i].longitude.None?
    ensures forall i, k | 0 <= i < |r| && 0 <= k < |refs| && refs[k].sampleId == rows[i].sampleId
        && (forall j | 0 <= j < k :: refs[j].sampleId != rows[i].sampleId) ::
      r[i].latitude == refs[k].latitude && r[i].longitude == refs[k].longitude
  {
    seq(|rows|, i requires 0 <= i < |rows| => LocateRow(rows[i], refs))
  }
}

=== FILE: loader.dfy ===
/** The variant loader (`read_vcf_file`): choose the record with the requested
    ID and turn its calls into one table row per sample. The file reader
    itself is not modelled: its records and sample list are the inputs. */
module Loader {
  import opened Wrappers
  import opened Table
  import opened Numerals
  import Strings

  /** What the loader returns: the sample table and the reference and first
      alternate allele of the chosen record. */
  datatype Loaded = Loaded(table: seq<Sample>, ref: string, alt: string)

  /** Position of the first record, in file order, whose ID is `id`. */
  function FirstMatch(records: seq<VariantRecord>, id: string): (r: Option<nat>)
    ensures r.None? <==> forall k | 0 <= k < |records| :: records[k].id != id
    ensures r.Some? ==> r.value < |records| && records[r.value].id == id
    ensures r.Some? ==> forall j | 0 <= j < r.value :: records[j].id != id
    decreases |records|
  {
    if |records| == 0 then None
    else if records[0].id == id then Some(0)
    else
      match FirstMatch(records[1..], id)
      case None => None
      case Some(k) => Some(k + 1)
  }

  /** The character between the two allele indices: `|` for a phased call, `/` otherwise. */
  function Separator(phased: bool): char {
    if phased then '|' else '/'
  }

  /** The genotype text of one call: both allele indices in decimal, joined
      by the separator of its phase. */
  function EncodeGenotype(c: Call): (g: string)
    ensures '|' in g <==> c.phased
    ensures '/' in g <==> !c.phased
    ensures g == Strings.Join([IntToString(c.first), IntToString(c.second)], Separator(c.phased))
  {
    var g := IntToString(c.first) + [Separator(c.phased)] + IntToString(c.second);
    assert g[|IntToString(c.first)|] == Separator(c.phased);
    g
  }

  function ParseAlleles(a: string, b: string, phased: bool): Option<Call> {
    match (ParseDecimal(a), ParseDecimal(b))
    case (Some(x), Some(y)) => Some(Call(x, y, phased))
    case _ => None
  }

  /** Reads a genotype text back into a call: two decimal allele indices
      around exactly one separator. This is the reference against which the
      encoding is checked; geogenoplot itself never parses genotypes. */
  function ParseGenotype(g: string): Option<Call> {
    var phasedParts := Strings.Split(g, '|');
    if |phasedParts| == 2 then ParseAlleles(phasedParts[0], phasedParts[1], true)
    else
      var unphasedParts := Strings.Split(g, '/');
      if |unphasedParts| == 2 then ParseAlleles(unphasedParts[0], unphasedParts[1], false)
      else None
  }

  lemma SplitAlleles(a: int, sep: char, b: int)
    requires sep == '|' || sep == '/'
    ensures Strings.Split(IntToString(a) + [sep] + IntToString(b), sep) == [IntToString(a), IntToString(b)]
  {
    var parts := [IntToString(a), IntToString(b)];
    assert Strings.Join(parts, sep) == IntToString(a) + [sep] + IntToString(b);
    Strings.SplitJoin(parts, sep);
  }

  /** Every encoded call reads back as that call: allele indices and phase survive the encoding. */
  lemma GenotypeRoundTrip(c: Call)
    ensures ParseGenotype(EncodeGenotype(c)) == Some(c)
  {
    var g := EncodeGenotype(c);
    DecimalRoundTrip(c.first);
    DecimalRoundTrip(c.second);
    SplitAlleles(c.first, Separator(c.phased), c.second);
    if !c.phased {
      Strings.SplitWithoutSeparator(g, '|');
    }
  }

  /** A genotype text that reads as a call is exactly that call's encoding. */
  lemma GenotypeCanonical(g: string, c: Call)
    requires ParseGenotype(g) == Some(c)
    ensures EncodeGenotype(c) == g
  {
    var sep := Separator(c.phased);
    var parts := Strings.Split(g, sep);
    Strings.JoinSplit(g, sep);
    if c.phased {
      assert |parts| == 2;
    } else {
      assert |Strings.Split(g, '|')| != 2;
      assert |parts| == 2;
    }
    assert Strings.Join(parts, sep) == parts[0] + [sep] + parts[1];
    DecimalCanonical(parts[0], c.first);
    DecimalCanonical(parts[1], c.second);
  }

  /** One row per sample, in sample-list order, holding that sample's call
      from the same position of the record. */
  function GenotypeTable(samples: seq<string>, calls: seq<Call>): (rows: seq<Sample>)
    requires |calls| >= |samples|
    ensures |rows| == |samples|
    ensures forall i | 0 <= i < |rows| ::
      && rows[i].sampleId == samples[i]
      && ParseGenotype(rows[i].genotype) == Some(calls[i])
      && rows[i].phased == calls[i].phased
    ensures forall i | 0 <= i < |rows| ::
      rows[i].latitude.None? && rows[i].longitude.None? && rows[i].value.None?
  {
    CallsRoundTrip(calls);
    seq(|samples|, i requires 0 <= i < |samples| =>
      Sample(samples[i], EncodeGenotype(calls[i]), calls[i].phased, None, None, None))
  }

  lemma CallsRoundTrip(calls: seq<Call>)
    ensures forall i | 0 <= i < |calls| :: ParseGenotype(EncodeGenotype(calls[i])) == Some(calls[i])
  {
    forall i | 0 <= i < |calls|
      ensures ParseGenotype(EncodeGenotype(calls[i])) == Some(calls[i])
    {
      GenotypeRoundTrip(calls[i]);
    }
  }

  /** The loader's work on the chosen record: an `IndexError` when the record
      has fewer calls than there are samples or no alternate allele. */
  function LoadRecord(record: VariantRecord, samples: seq<string>): (r: Result<Loaded, Failure>)
    ensures r.Ok? <==> |record.calls| >= |samples| && |record.alts| > 0
    ensures r.Err? ==> r.error == IndexOutOfRange
    ensures r.Ok? ==> r.value.ref == record.ref && r.value.alt == record.alts[0]
    ensures r.Ok? ==> |r.value.table| == |samples|
  {
    if |record.calls| < |samples| || |record.alts| == 0 then Err(IndexOutOfRange)
    else Ok(Loaded(GenotypeTable(samples, record.calls), record.ref, record.alts[0]))
  }

  /** `read_vcf_file`: a `ValueError` naming the ID when no record has it,
      otherwise the first record with that ID is loaded and later ones are ignored. */
  function ReadVcf(records: seq<VariantRecord>, samples: seq<string>, variantId: string): (r: Result<Loaded, Failure>)
    ensures (forall k | 0 <= k < |records| :: records[k].id != variantId) <==> r == Err(VariantNotFound(variantId))
    ensures forall k | 0 <= k < |records| && records[k].id == variantId && (forall j | 0 <= j < k :: records[j].id != variantId) ::
      r == LoadRecord(records[k], samples)
    ensures r.Ok? ==> |r.value.table| == |samples|
  {
    match FirstMatch(records, variantId)
    case None => Err(VariantNotFound(variantId))
    case Some(k) =>
      assert forall j | 0 <= j < |records| && records[j].id == variantId && (forall i | 0 <= i < j :: records[i].id != variantId) :: j == k;
      LoadRecord(records[k], samples)
  }

  /** A loaded table has one row per sample, in order, whose genotype text is
      that sample's call in the first matching record, phase included. */
  lemma {:induction false} LoadedRows(records: seq<VariantRecord>, samples: seq<string>, variantId: string, k: nat)
    requires k < |records| && records[k].id == variantId
    requires forall j | 0 <= j < k :: records[j].id != variantId
    requires |records[k].calls| >= |samples| && |records[k].alts| > 0
    ensures ReadVcf(records, samples, variantId).Ok?
    ensures var t := ReadVcf(records, samples, variantId).value.table;
      && |t| == |samples|
      && forall i | 0 <= i < |t| ::
        t[i].sampleId == samples[i] && t[i].genotype == EncodeGenotype(records[k].calls[i]) && t[i].phased == records[k].calls[i].phased
  {
    var t := ReadVcf(records, samples, variantId).value.table;
    assert t == GenotypeTable(samples, records[k].calls);
    forall i | 0 <= i < |t|
      ensures t[i].genotype == EncodeGenotype(records[k].calls[i])
    {
      GenotypeCanonical(t[i].genotype, records[k].calls[i]);
    }
  }
}

=== FILE: numerals.dfy ===
/** Decimal text of integers: Python's `str(n)` for an integer `n`, its strict
    inverse, and the more permissive `int(text)` the command line uses for the
    map limits. */
module Numerals {
  import opened Wrappers

  predicate IsDigit(c: char) {
    '0' <= c <= '9'
  }

  predicate AllDigits(s: string) {
    forall i | 0 <= i < |s| :: IsDigit(s[i])
  }

  function DigitValue(c: char): (d: nat)
    requires IsDigit(c)
    ensures d < 10
  {
    c as int - '0' as int
  }

  function DigitChar(d: nat): (c: char)
    requires d < 10
    ensures IsDigit(c) && DigitValue(c) == d
  {
    ('0' as int + d) as char
  }

  /** The number a string of decimal digits denotes (leading zeros allowed). */
  function DigitsValue(s: string): nat
    requires AllDigits(s)
    decreases |s|
  {
    if |s| == 0 then 0 else DigitsValue(s[..|s| - 1]) * 10 + DigitValue(s[|s| - 1])
  }

  /** The digit strings `str` produces for a natural number: no leading zero
      except for zero itself. */
  predicate IsCanonical(s: string) {
    |s| > 0 && AllDigits(s) && (s[0] == '0' ==> |s| == 1)
  }

  /** `str(n)` for a non-negative `n`. */
  function NatToString(n: nat): (s: string)
    ensures IsCanonical(s) && DigitsValue(s) == n
    ensures s[0] == '0' <==> n == 0
    decreases n
  {
    if n < 10 then [DigitChar(n)]
    else
      var init := NatToString(n / 10);
      var s := init + [DigitChar(n % 10)];
      assert s[..|s| - 1] == init;
      s
  }

  /** `str(i)` for any integer `i`: a minus sign for negatives, then the digits. */
  function IntToString(i: int): (s: string)
    ensures |s| > 0 && (s[0] == '-' || IsDigit(s[0])) && IsDigit(s[|s| - 1])
    ensures forall k | 0 <= k < |s| :: IsDigit(s[k]) || (k == 0 && s[k] == '-')
    ensures s[0] == '-' <==> i < 0
  {
    if i < 0 then "-" + NatToString(-i) else NatToString(i)
  }

  /** The strict inverse of `NatToString`: only canonical digit strings parse. */
  function ParseNat(s: string): Option<nat> {
    if IsCanonical(s) then Some(DigitsValue(s)) else None
  }

  /** The strict inverse of `IntToString`: an optional minus sign before a
      canonical non-zero number, or a canonical number. */
  function ParseDecimal(s: string): Option<int> {
    if |s| > 0 && s[0] == '-' then
      match ParseNat(s[1..])
      case Some(n) => if n == 0 then None else Some(0 - n as int)
      case None => None
    else
      match ParseNat(s)
      case Some(n) => Some(n)
      case None => None
  }

  lemma {:induction false} NonZeroLead(s: string)
    requires |s| > 0 && AllDigits(s) && s[0] != '0'
    ensures DigitsValue(s) >= 1
    decreases |s|
  {
    if |s| > 1 {
      NonZeroLead(s[..|s| - 1]);
    }
  }

  /** Reading a canonical digit string and printing the number gives the string back. */
  lemma {:induction false} CanonicalRoundTrip(s: string)
    requires IsCanonical(s)
    ensures NatToString(DigitsValue(s)) == s
    decreases |s|
  {
    var c := s[|s| - 1];
    assert DigitChar(DigitValue(c)) == c;
    if |s| > 1 {
      var init := s[..|s| - 1];
      assert IsCanonical(init);
      NonZeroLead(init);
      CanonicalRoundTrip(init);
      var n := DigitsValue(s);
      assert n / 10 == DigitsValue(init) && n % 10 == DigitValue(c);
      assert init + [c] == s;
    }
  }

  /** Every integer's text parses back to that integer. */
  lemma DecimalRoundTrip(i: int)
    ensures ParseDecimal(IntToString(i)) == Some(i)
  {
    if i < 0 {
      var s := IntToString(i);
      assert s[1..] == NatToString(-i);
    }
  }

  /** Only the text of an integer parses to it: the parse accepts nothing else. */
  lemma DecimalCanonical(s: string, i: int)
    requires ParseDecimal(s) == Some(i)
    ensures IntToString(i) == s
  {
    if |s| > 0 && s[0] == '-' {
      CanonicalRoundTrip(s[1..]);
      assert s == "-" + s[1..];
    } else {
      CanonicalRoundTrip(s);
    }
  }

  /** The ASCII characters Python's `int` skips around its digits: tab, line
      feed, vertical tab, form feed, carriage return and the space. The four
      information separators U+001C to U+001F are not among them, although
      `str.strip` removes them. */
  predicate IsSpace(c: char) {
    9 <= c as int <= 13 || c as int == 32
  }

  /** `s` without its leading white space. */
  function TrimStart(s: string): (t: string)
    ensures |t| <= |s| && t == s[|s| - |t|..]
    ensures |t| > 0 ==> !IsSpace(t[0])
    ensures forall k | 0 <= k < |s| - |t| :: IsSpace(s[k])
    decreases |s|
  {
    if |s| > 0 && IsSpace(s[0]) then TrimStart(s[1..]) else s
  }

  /** `s` without its trailing white space. */
  function TrimEnd(s: string): (t: string)
    ensures |t| <= |s| && t == s[..|t|]
    ensures |t| > 0 ==> !IsSpace(t[|t| - 1])
    ensures forall k | |t| <= k < |s| :: IsSpace(s[k])
    decreases |s|
  {
    if |s| > 0 && IsSpace(s[|s| - 1]) then TrimEnd(s[..|s| - 1]) else s
  }

  /** `s` without the white space above at either end. */
  function Trim(s: string): string {
    TrimEnd(TrimStart(s))
  }

  /** Digits in groups separated by single underscores, as base-10 `int`
      accepts after the sign: `1_000` but not `_1`, `1_` or `1__0`. */
  predicate IsGroupedDigits(b: string) {
    && |b| > 0
    && IsDigit(b[0])
    && IsDigit(b[|b| - 1])
    && forall i | 0 <= i < |b| :: IsDigit(b[i]) || (b[i] == '_' && 0 < i < |b| - 1 && IsDigit(b[i + 1]))
  }

  /** The number a string of digits and underscores denotes, the underscores ignored. */
  function GroupedValue(b: string): nat
    requires forall i | 0 <= i < |b| :: IsDigit(b[i]) || b[i] == '_'
    decreases |b|
  {
    if |b| == 0 then 0
    else if b[|b| - 1] == '_' then GroupedValue(b[..|b| - 1])
    else GroupedValue(b[..|b| - 1]) * 10 + DigitValue(b[|b| - 1])
  }

  lemma {:induction false} GroupedValueOfDigits(s: string)
    requires AllDigits(s)
    ensures GroupedValue(s) == DigitsValue(s)
    decreases |s|
  {
    if |s| > 0 {
      GroupedValueOfDigits(s[..|s| - 1]);
    }
  }

  /** Python's `int(text)` in base 10: surrounding white space, an optional
      sign, then grouped digits; anything else is `None` (a `ValueError`). */
  function PyInt(text: string): Option<int> {
    var t := Trim(text);
    var negative := |t| > 0 && t[0] == '-';
    var body := if |t| > 0 && (t[0] == '-' || t[0] == '+') then t[1..] else t;
    if IsGroupedDigits(body) then
      var v: int := GroupedValue(body);
      Some(if negative then -v else v)
    else None
  }

  /** Text with no white space at either end is its own trim. */
  lemma TrimUnspaced(s: string)
    requires |s| > 0 && !IsSpace(s[0]) && !IsSpace(s[|s| - 1])
    ensures Trim(s) == s
  {
    assert TrimStart(s) == s;
  }

  /** A plain digit string is a single group. */
  lemma DigitsGrouped(digits: string)
    requires |digits| > 0 && AllDigits(digits)
    ensures IsGroupedDigits(digits) && GroupedValue(digits) == DigitsValue(digits)
  {
    GroupedValueOfDigits(digits);
  }

  /** `int` reads a plain digit string, signed or not, as its decimal value. */
  lemma PyIntOfDigits(negative: bool, digits: string)
    requires |digits| > 0 && AllDigits(digits)
    ensures var v: int := DigitsValue(digits);
      PyInt(if negative then "-" + digits else digits) == Some(if negative then -v else v)
  {
    var s := if negative then "-" + digits else digits;
    assert s[|s| - 1] == digits[|digits| - 1];
    assert IsDigit(s[|s| - 1]) && (IsDigit(s[0]) || s[0] == '-');
    TrimUnspaced(s);
    var t := Trim(s);
    assert t == s;
    var body := if |t| > 0 && (t[0] == '-' || t[0] == '+') then t[1..] else t;
    assert body == digits;
    DigitsGrouped(digits);
  }

  /** `int(str(i)) == i`. */
  lemma PyIntRoundTrip(i: int)
    ensures PyInt(IntToString(i)) == Some(i)
  {
    if i < 0 {
      PyIntOfDigits(true, NatToString(-i));
    } else {
      PyIntOfDigits(false, NatToString(i));
    }
  }
}

=== FILE: orchestrator.dfy ===
/** The run (`plot_main`): load, join, sample, draw the correlation plot or
    plots, write the table, parse the map limits and draw the map. A run is
    described by the files it writes, in order, and the exception that stops
    it, if any; file contents and drawing are not modelled. */
module Orchestrator {
  import opened Wrappers
  import opened Table
  import Seqs
  import Strings
  import Numerals
  import Loader
  import Join
  import Raster
  import Plot

  /** The command-line options the run reads. */
  datatype Options = Options(
    varId: string,
    phased: bool,
    envFactorName: string,
    statistic: string,
    noTrendline: bool,
    lat: string,
    lon: string)

  /** One correlation plot to draw: its statistic and the file it is saved to. */
  datatype PlotJob = PlotJob(statistic: string, file: string)

  /** The files a run wrote, in order, and the exception that ended it, if any. */
  datatype Report = Report(written: seq<string>, failure: Option<Failure>)

  const CorrelationInfix: string := ".correlation."

  /** The raster sampling call: the coordinates of a request in, an optional
      number per sample id out. */
  type Sampler = map<string, Raster.Coord> -> map<string, Option<real>>

  /** Whether a statistic function raises on the pairing it is given. */
  type StatisticRaises = (string, Plot.Pairing) -> bool

  /** The correlation plots of a run. The choice `all` draws the three
      statistics in a fixed order, the Pearson file spelt `peason`; any other
      choice draws one plot named after it. */
  function CorrelationJobs(varId: string, statistic: string): (jobs: seq<PlotJob>)
    ensures statistic == "all" ==>
      && |jobs| == 3
      && jobs[0].statistic == "pearson" && jobs[1].statistic == "spearman" && jobs[2].statistic == "kruskal"
    ensures statistic != "all" ==> |jobs| == 1 && jobs[0].statistic == statistic
    ensures forall k | 0 <= k < |jobs| ::
      jobs[k].file == varId + CorrelationInfix
        + (if statistic == "all" && jobs[k].statistic == "pearson" then "peason" else jobs[k].statistic) + ".pdf"
  {
    if statistic == "all" then
      [ PlotJob("pearson", varId + CorrelationInfix + "peason" + ".pdf"),
        PlotJob("spearman", varId + CorrelationInfix + "spearman" + ".pdf"),
        PlotJob("kruskal", varId + CorrelationInfix + "kruskal" + ".pdf") ]
    else
      [PlotJob(statistic, varId + CorrelationInfix + statistic + ".pdf")]
  }

  function JobFiles(jobs: seq<PlotJob>): (files: seq<string>)
    ensures |files| == |jobs| && forall k | 0 <= k < |jobs| :: files[k] == jobs[k].file
  {
    seq(|jobs|, k requires 0 <= k < |jobs| => jobs[k].file)
  }

  function CsvName(varId: string): string {
    varId + ".csv"
  }

  function MapName(varId: string): string {
    varId + ".map.pdf"
  }

  /** Each piece through the integer conversion `parse`, left to right; the
      first piece it rejects raises. */
  function ParseAll(parts: seq<string>, parse: string -> Option<int>): (r: Result<seq<int>, Failure>)
    ensures r.Ok? <==> forall k | 0 <= k < |parts| :: parse(parts[k]).Some?
    ensures r.Ok? ==> |r.value| == |parts| && forall k | 0 <= k < |parts| :: parse(parts[k]) == Some(r.value[k])
    ensures r.Err? ==> exists k | 0 <= k < |parts| ::
      r.error == InvalidLiteral(parts[k]) && parse(parts[k]).None? && forall j | 0 <= j < k :: parse(parts[j]).Some?
    decreases |parts|
  {
    if |parts| == 0 then Ok([])
    else
      match parse(parts[0])
      case None => Err(InvalidLiteral(parts[0]))
      case Some(v) =>
        match ParseAll(parts[1..], parse)
        case Err(e) =>
          FirstInvalidShifts(parts, parse, e);
          Err(e)
        case Ok(vs) => Ok([v] + vs)
  }

  lemma FirstInvalidShifts(parts: seq<string>, parse: string -> Option<int>, e: Failure)
    requires |parts| > 0 && parse(parts[0]).Some?
    requires exists k | 0 <= k < |parts| - 1 ::
      e == InvalidLiteral(parts[1..][k]) && parse(parts[1..][k]).None? && forall j | 0 <= j < k :: parse(parts[1..][j]).Some?
    ensures exists k | 0 <= k < |parts| ::
      e == InvalidLiteral(parts[k]) && parse(parts[k]).None? && forall j | 0 <= j < k :: parse(parts[j]).Some?
  {
    var k :| 0 <= k < |parts| - 1 &&
      e == InvalidLiteral(parts[1..][k]) && parse(parts[1..][k]).None? && forall j | 0 <= j < k :: parse(parts[1..][j]).Some?;
    assert parts[k + 1] == parts[1..][k];
    forall j | 0 <= j < k + 1
      ensures parse(parts[j]).Some?
    {
      if j > 0 {
        assert parts[j] == parts[1..][j - 1];
      }
    }
  }

  /** The comma-separated pieces of a map limit option. */
  function LimitPieces(text: string): seq<string> {
    Strings.Split(text, ',')
  }

  /** A map limit option `"MIN,MAX"`: the comma-separated pieces through `int`.
      It succeeds exactly when `int` accepts every piece, giving their values
      in order. */
  function ParseLimits(text: string): (r: Result<seq<int>, Failure>)
    ensures var parts := LimitPieces(text);
      && (r.Ok? <==> forall k | 0 <= k < |parts| :: Numerals.PyInt(parts[k]).Some?)
      && (r.Ok? ==> |r.value| == |parts| && forall k | 0 <= k < |parts| :: Numerals.PyInt(parts[k]) == Some(r.value[k]))
  {
    ParseAll(LimitPieces(text), Numerals.PyInt)
  }

  lemma ParsePair(a: string, b: string, lo: int, hi: int, parse: string -> Option<int>)
    requires parse(a) == Some(lo) && parse(b) == Some(hi)
    ensures ParseAll([a, b], parse) == Ok([lo, hi])
  {
    var parts := [a, b];
    assert parse(parts[0]).Some? && parse(parts[1]).Some?;
    var r := ParseAll(parts, parse);
    assert r.Ok? && |r.value| == 2;
    assert parse(parts[0]) == Some(r.value[0]) && parse(parts[1]) == Some(r.value[1]);
    assert r.value == [lo, hi];
  }

  lemma SplitPair(a: string, b: string)
    requires ',' !in a && ',' !in b
    ensures Strings.Split(a + "," + b, ',') == [a, b]
  {
    Strings.SplitWithoutSeparator(a, ',');
    Strings.SplitAppend(a, ',', b);
    assert a + "," + b == a + [','] + b;
  }

  /** Two integers written with a comma between them read back as those two integers. */
  lemma LimitsRoundTrip(lo: int, hi: int)
    ensures ParseLimits(Numerals.IntToString(lo) + "," + Numerals.IntToString(hi)) == Ok([lo, hi])
  {
    var a, b := Numerals.IntToString(lo), Numerals.IntToString(hi);
    SplitPair(a, b);
    Numerals.PyIntRoundTrip(lo);
    Numerals.PyIntRoundTrip(hi);
    ParsePair(a, b, lo, hi, Numerals.PyInt);
  }

  lemma DefaultLimitTexts()
    ensures Numerals.IntToString(-37) + "," + Numerals.IntToString(51) == "-37,51"
    ensures Numerals.IntToString(-20) + "," + Numerals.IntToString(95) == "-20,95"
  {
    assert Numerals.NatToString(37) == Numerals.NatToString(3) + [Numerals.DigitChar(7)];
    assert Numerals.NatToString(51) == Numerals.NatToString(5) + [Numerals.DigitChar(1)];
    assert Numerals.NatToString(20) == Numerals.NatToString(2) + [Numerals.DigitChar(0)];
    assert Numerals.NatToString(95) == Numerals.NatToString(9) + [Numerals.DigitChar(5)];
  }

  /** The default latitude and longitude limits. */
  lemma DefaultLimits()
    ensures ParseLimits("-37,51") == Ok([-37, 51])
    ensures ParseLimits("-20,95") == Ok([-20, 95])
  {
    DefaultLimitTexts();
    LimitsRoundTrip(-37, 51);
    LimitsRoundTrip(-20, 95);
  }

  /** The enrichment passes after loading: coordinates, then the sampler's
      answer to the request built from the located rows, with the default
      factor 1. */
  function Enrich(rows: seq<Sample>, refs: seq<GeoRef>, sampler: Sampler): (t: seq<Sample>)
    ensures |t| == |rows|
    ensures forall i | 0 <= i < |t| ::
      t[i].sampleId == rows[i].sampleId && t[i].genotype == rows[i].genotype && t[i].phased == rows[i].phased
  {
    var located := Join.AddLocation(rows, refs);
    Raster.AddRasterValue(located, sampler(Raster.CoordRequest(located)), 1.0)
  }

  /** The written table has one row per sample, in sample-list order, each
      with the genotype text of its own call in the first matching record:
      the plot's normalisation works on a copy and never reaches it. */
  lemma WrittenTable(
    records: seq<VariantRecord>, samples: seq<string>, refs: seq<GeoRef>,
    sampler: Sampler, variantId: string, k: nat)
    requires k < |records| && records[k].id == variantId
    requires forall j | 0 <= j < k :: records[j].id != variantId
    requires |records[k].calls| >= |samples| && |records[k].alts| > 0
    ensures Loader.ReadVcf(records, samples, variantId).Ok?
    ensures var t := Enrich(Loader.ReadVcf(records, samples, variantId).value.table, refs, sampler);
      && |t| == |samples|
      && forall i | 0 <= i < |t| ::
        && t[i].sampleId == samples[i]
        && t[i].genotype == Loader.EncodeGenotype(records[k].calls[i])
        && t[i].phased == records[k].calls[i].phased
  {
    Loader.LoadedRows(records, samples, variantId, k);
  }

  /** Whether the correlation plot for `statistic` binds all its names:
      always when phased, otherwise only with the trendline on and a known
      statistic. */
  predicate Binds(opts: Options, statistic: string) {
    opts.phased || (!opts.noTrendline && Plot.IsStatistic(statistic))
  }

  /** The correlation plots in order, `draw` giving the outcome of one plot;
      each is saved before the next is drawn, and the first that raises ends
      the run with its error. */
  function DrawPlots(jobs: seq<PlotJob>, draw: string -> Result<Plot.Figure, Failure>): (r: Report)
    ensures |r.written| <= |jobs|
    ensures forall k | 0 <= k < |r.written| :: r.written[k] == jobs[k].file && draw(jobs[k].statistic).Ok?
    ensures r.failure.None? <==> |r.written| == |jobs|
    ensures r.failure.Some? ==>
      && |r.written| < |jobs|
      && draw(jobs[|r.written|].statistic).Err?
      && r.failure == Some(draw(jobs[|r.written|].statistic).error)
    decreases |jobs|
  {
    if |jobs| == 0 then Report([], None)
    else
      var first := draw(jobs[0].statistic);
      if first.Err? then Report([], Some(first.error))
      else
        var rest := DrawPlots(jobs[1..], draw);
        assert forall k | 1 <= k < |jobs| :: jobs[k] == jobs[1..][k - 1];
        Report([jobs[0].file] + rest.written, rest.failure)
  }

  /** The plots all succeed exactly when every drawing does, and then every
      plot file is written, in job order. */
  lemma DrawnAll(jobs: seq<PlotJob>, draw: string -> Result<Plot.Figure, Failure>)
    ensures var r := DrawPlots(jobs, draw);
      && (r.failure.None? <==> forall k | 0 <= k < |jobs| :: draw(jobs[k].statistic).Ok?)
      && (r.failure.None? ==> r.written == JobFiles(jobs))
  {
    var r := DrawPlots(jobs, draw);
    if r.failure.Some? {
      assert !draw(jobs[|r.written|].statistic).Ok?;
    } else {
      assert r.written == JobFiles(jobs);
    }
  }

  /** Whether the statistic call of a plot, when it is made, returns: a
      phased plot makes none. */
  predicate Returns(obs: seq<Plot.Observation>, opts: Options, raises: StatisticRaises, statistic: string) {
    opts.phased || !raises(statistic, Plot.UnphasedPairing(obs))
  }

  /** Whether every statistic call of a run returns. */
  predicate StatisticsReturn(obs: seq<Plot.Observation>, opts: Options, raises: StatisticRaises) {
    var jobs := CorrelationJobs(opts.varId, opts.statistic);
    forall k | 0 <= k < |jobs| :: Returns(obs, opts, raises, jobs[k].statistic)
  }

  /** The plots written are always a first part of the plot files, and all
      of them when no plot fails. */
  lemma PlotsWritten(jobs: seq<PlotJob>, draw: string -> Result<Plot.Figure, Failure>)
    ensures DrawPlots(jobs, draw).written <= JobFiles(jobs)
    ensures DrawPlots(jobs, draw).failure.None? ==> DrawPlots(jobs, draw).written == JobFiles(jobs)
  {
    DrawnAll(jobs, draw);
  }

  /** After plots that wrote a first part of the plot files, the run writes
      a first part of all its files, and all of them when it completes. */
  lemma FinishWritten(plots: Report, opts: Options, lon: Result<seq<int>, Failure>, lat: Result<seq<int>, Failure>)
    requires plots.written <= JobFiles(CorrelationJobs(opts.varId, opts.statistic))
    requires plots.failure.None? ==> plots.written == JobFiles(CorrelationJobs(opts.varId, opts.statistic))
    ensures Finish(plots, opts, lon, lat).written <= RunFiles(opts)
    ensures Finish(plots, opts, lon, lat).failure.None? ==> Finish(plots, opts, lon, lat).written == RunFiles(opts)
  {
    var files := JobFiles(CorrelationJobs(opts.varId, opts.statistic));
    assert RunFiles(opts) == files + [CsvName(opts.varId), MapName(opts.varId)];
    assert files + [CsvName(opts.varId)] <= RunFiles(opts);
  }

  /** A table without rows fails the first plot, before anything is written. */
  lemma EmptyTablePlots(obs: seq<Plot.Observation>, ref: string, alt: string, opts: Options, raises: StatisticRaises)
    ensures |obs| == 0 ==>
      DrawPlots(CorrelationJobs(opts.varId, opts.statistic), Drawer(obs, ref, alt, opts, raises))
        == Report([], Some(MissingColumn("value")))
  {
    var jobs := CorrelationJobs(opts.varId, opts.statistic);
    var draw := Drawer(obs, ref, alt, opts, raises);
    assert |obs| == 0 ==> draw(jobs[0].statistic) == Err(MissingColumn("value"));
  }

  /** One correlation plot of a run, drawn from the enriched observations.
      The location and value columns come into being through assignments
      row by row, so a table without rows has no `value` column, and the
      plot's first read of it raises a `KeyError` whatever the options. */
  function Draw(
    obs: seq<Plot.Observation>, ref: string, alt: string, opts: Options, raises: StatisticRaises,
    statistic: string): (r: Result<Plot.Figure, Failure>)
    ensures |obs| == 0 ==> r == Err(MissingColumn("value"))
    ensures r.Ok? <==> |obs| > 0 && Binds(opts, statistic) && Returns(obs, opts, raises, statistic)
  {
    if |obs| == 0 then Err(MissingColumn("value"))
    else
      Plot.CorrelationPlot(obs, Some(ref), Some(alt), opts.phased, !opts.noTrendline,
                           opts.envFactorName, statistic, "Correlation", raises)
  }

  /** The plot step of a run, as a function of the statistic. */
  function Drawer(obs: seq<Plot.Observation>, ref: string, alt: string, opts: Options, raises: StatisticRaises)
    : string -> Result<Plot.Figure, Failure>
  {
    s => Draw(obs, ref, alt, opts, raises, s)
  }

  /** The plots of a run all succeed exactly when the table has rows, the
      plots bind their names (phased, or the trendline on and a known
      statistic choice) and every statistic call returns; they then write
      every plot file in job order. */
  lemma PlotsOutcome(obs: seq<Plot.Observation>, ref: string, alt: string, opts: Options, raises: StatisticRaises)
    ensures var jobs := CorrelationJobs(opts.varId, opts.statistic);
      var plots := DrawPlots(jobs, Drawer(obs, ref, alt, opts, raises));
      && (plots.failure.None? <==>
          && |obs| > 0
          && (opts.phased || (!opts.noTrendline && IsChoice(opts.statistic)))
          && StatisticsReturn(obs, opts, raises))
      && (plots.failure.None? ==> plots.written == JobFiles(jobs))
  {
    var jobs := CorrelationJobs(opts.varId, opts.statistic);
    var draw := Drawer(obs, ref, alt, opts, raises);
    assert forall k | 0 <= k < |jobs| ::
      draw(jobs[k].statistic).Ok? == (|obs| > 0 && Binds(opts, jobs[k].statistic) && Returns(obs, opts, raises, jobs[k].statistic));
    DrawnAll(jobs, draw);
    PlotsBind(opts);
    assert |jobs| > 0;
  }

  /** `plot_main`, given the variant file's records and sample list, the
      reference table, the raster sampling call and whether each statistic
      raises on a pairing. */
  function PlotMain(
    records: seq<VariantRecord>, samples: seq<string>, refs: seq<GeoRef>,
    sampler: Sampler, raises: StatisticRaises, opts: Options): (r: Report)
    ensures (forall k | 0 <= k < |records| :: records[k].id != opts.varId) ==>
      r == Report([], Some(VariantNotFound(opts.varId)))
    ensures r.written <= RunFiles(opts)
    ensures r.failure.None? ==> r.written == RunFiles(opts)
  {
    match Loader.ReadVcf(records, samples, opts.varId)
    case Err(e) => Report([], Some(e))
    case Ok(loaded) => Run(Plot.Observations(Enrich(loaded.table, refs, sampler)), loaded.ref, loaded.alt, opts, raises)
  }

  /** The part of `plot_main` after the table is built: the correlation plots,
      then the table file, then the two limits and the map. */
  function Run(obs: seq<Plot.Observation>, ref: string, alt: string, opts: Options, raises: StatisticRaises): (r: Report)
    ensures |obs| == 0 ==> r == Report([], Some(MissingColumn("value")))
    ensures r.written <= RunFiles(opts)
    ensures r.failure.None? ==> r.written == RunFiles(opts)
  {
    var jobs := CorrelationJobs(opts.varId, opts.statistic);
    var draw := Drawer(obs, ref, alt, opts, raises);
    PlotsWritten(jobs, draw);
    var lon, lat := ParseLimits(opts.lon), ParseLimits(opts.lat);
    FinishWritten(DrawPlots(jobs, draw), opts, lon, lat);
    EmptyTablePlots(obs, ref, alt, opts, raises);
    Finish(DrawPlots(jobs, draw), opts, lon, lat)
  }

  /** The files of a complete run, in the order they are written. */
  function RunFiles(opts: Options): seq<string> {
    JobFiles(CorrelationJobs(opts.varId, opts.statistic)) + [CsvName(opts.varId), MapName(opts.varId)]
  }

  /** After the plots: a failed plot ends the run; otherwise the table file is
      written, then the longitude limits `lon` are parsed, then the latitude
      limits `lat`, and the map is written. A limit that does not parse
      leaves the plots and the table on disk. */
  function Finish(plots: Report, opts: Options, lon: Result<seq<int>, Failure>, lat: Result<seq<int>, Failure>): (r: Report)
    ensures plots.failure.Some? ==> r == plots
    ensures r.failure.None? <==> plots.failure.None? && lon.Ok? && lat.Ok?
    ensures r.failure.None? ==> r.written == plots.written + [CsvName(opts.varId), MapName(opts.varId)]
    ensures plots.failure.None? && r.failure.Some? ==>
      && r.written == plots.written + [CsvName(opts.varId)]
      && r.failure == Some(if lon.Err? then lon.error else lat.error)
  {
    if plots.failure.Some? then plots
    else
      var written := plots.written + [CsvName(opts.varId)];
      match lon
      case Err(e) => Report(written, Some(e))
      case Ok(_) =>
        match lat
        case Err(e) => Report(written, Some(e))
        case Ok(_) => Report(written + [MapName(opts.varId)], None)
  }

  /** A loaded run completes exactly when its plots succeed and both limits
      parse, and then writes the plots, the table and the map in order. */
  lemma RunComplete(obs: seq<Plot.Observation>, ref: string, alt: string, opts: Options, raises: StatisticRaises)
    ensures var r := Run(obs, ref, alt, opts, raises);
      r.failure.None? <==>
        && |obs| > 0
        && (opts.phased || (!opts.noTrendline && IsChoice(opts.statistic)))
        && StatisticsReturn(obs, opts, raises)
        && ParseLimits(opts.lon).Ok? && ParseLimits(opts.lat).Ok?
    ensures var r := Run(obs, ref, alt, opts, raises);
      r.failure.None? ==>
        r.written == JobFiles(CorrelationJobs(opts.varId, opts.statistic)) + [CsvName(opts.varId), MapName(opts.varId)]
  {
    PlotsOutcome(obs, ref, alt, opts, raises);
  }

  /** The statistic choices the command line offers. */
  predicate IsChoice(statistic: string) {
    statistic == "all" || Plot.IsStatistic(statistic)
  }

  /** A requested ID that no record carries ends the run before any file is written. */
  lemma NotFoundWritesNothing(
    records: seq<VariantRecord>, samples: seq<string>, refs: seq<GeoRef>,
    sampler: Sampler, raises: StatisticRaises, opts: Options)
    requires forall k | 0 <= k < |records| :: records[k].id != opts.varId
    ensures PlotMain(records, samples, refs, sampler, raises, opts) == Report([], Some(VariantNotFound(opts.varId)))
  {
  }

  /** Every plot of a run binds its names exactly when the run is phased, or
      has the trendline on and a known statistic choice. Whether the
      statistic calls return is a separate condition (`PlotsOutcome`). */
  lemma PlotsBind(opts: Options)
    ensures var jobs := CorrelationJobs(opts.varId, opts.statistic);
      (forall k | 0 <= k < |jobs| :: Binds(opts, jobs[k].statistic))
      <==> opts.phased || (!opts.noTrendline && IsChoice(opts.statistic))
  {
    var jobs := CorrelationJobs(opts.varId, opts.statistic);
    if opts.statistic == "all" {
      assert forall k | 0 <= k < |jobs| :: Plot.IsStatistic(jobs[k].statistic);
    } else {
      assert jobs[0].statistic == opts.statistic;
    }
  }

  /** A run completes exactly when the variant loads with at least one
      sample, the plots bind their names (phased, or trendline on with a
      known statistic), every statistic call returns and both limits parse;
      it then writes the correlation plots, the table and the map, in that
      order. */
  lemma CompleteRun(
    records: seq<VariantRecord>, samples: seq<string>, refs: seq<GeoRef>,
    sampler: Sampler, raises: StatisticRaises, opts: Options)
    ensures var r := PlotMain(records, samples, refs, sampler, raises, opts);
      var loaded := Loader.ReadVcf(records, samples, opts.varId);
      r.failure.None? <==>
        && loaded.Ok?
        && |samples| > 0
        && (opts.phased || (!opts.noTrendline && IsChoice(opts.statistic)))
        && StatisticsReturn(Plot.Observations(Enrich(loaded.value.table, refs, sampler)), opts, raises)
        && ParseLimits(opts.lon).Ok? && ParseLimits(opts.lat).Ok?
    ensures var r := PlotMain(records, samples, refs, sampler, raises, opts);
      r.failure.None? ==>
        r.written == JobFiles(CorrelationJobs(opts.varId, opts.statistic)) + [CsvName(opts.varId), MapName(opts.varId)]
  {
    match Loader.ReadVcf(records, samples, opts.varId)
    case Err(_) =>
    case Ok(loaded) =>
      RunComplete(Plot.Observations(Enrich(loaded.table, refs, sampler)), loaded.ref, loaded.alt, opts, raises);
  }

  /** A variant file without samples gives a table without rows, and so
      without a `value` column: a run that loads its variant fails in its
      first plot, before any file is written, whatever the options. */
  lemma NoSamplesNoFiles(
    records: seq<VariantRecord>, refs: seq<GeoRef>, sampler: Sampler, raises: StatisticRaises, opts: Options)
    ensures PlotMain(records, [], refs, sampler, raises, opts) ==
      match Loader.ReadVcf(records, [], opts.varId)
      case Err(e) => Report([], Some(e))
      case Ok(_) => Report([], Some(MissingColumn("value")))
  {
    match Loader.ReadVcf(records, [], opts.varId)
    case Err(_) =>
    case Ok(loaded) =>
      var obs := Plot.Observations(Enrich(loaded.table, refs, sampler));
      var jobs := CorrelationJobs(opts.varId, opts.statistic);
      assert Draw(obs, loaded.ref, loaded.alt, opts, raises, jobs[0].statistic) == Err(MissingColumn("value"));
  }

  /** Unphased with the trendline switched off, a run that loads its variant
      fails in the first plot, whatever known statistic is chosen, before any
      file is written: on the missing `value` column when there are no
      samples, on the unbound pairing otherwise. */
  lemma UnphasedWithoutTrendline(
    records: seq<VariantRecord>, samples: seq<string>, refs: seq<GeoRef>,
    sampler: Sampler, raises: StatisticRaises, opts: Options)
    requires !opts.phased && opts.noTrendline && IsChoice(opts.statistic)
    ensures PlotMain(records, samples, refs, sampler, raises, opts) ==
      match Loader.ReadVcf(records, samples, opts.varId)
      case Err(e) => Report([], Some(e))
      case Ok(_) => Report([], Some(if |samples| == 0 then MissingColumn("value") else UnboundName("x_list")))
  {
    match Loader.ReadVcf(records, samples, opts.varId)
    case Err(_) =>
    case Ok(loaded) =>
      RunUnbound(Plot.Observations(Enrich(loaded.table, refs, sampler)), loaded.ref, loaded.alt, opts, raises);
  }

  lemma RunUnbound(obs: seq<Plot.Observation>, ref: string, alt: string, opts: Options, raises: StatisticRaises)
    requires !opts.phased && opts.noTrendline && IsChoice(opts.statistic)
    ensures Run(obs, ref, alt, opts, raises) ==
      Report([], Some(if |obs| == 0 then MissingColumn("value") else UnboundName("x_list")))
  {
    var jobs := CorrelationJobs(opts.varId, opts.statistic);
    assert Plot.IsStatistic(jobs[0].statistic);
    assert Draw(obs, ref, alt, opts, raises, jobs[0].statistic)
      == Err(if |obs| == 0 then MissingColumn("value") else UnboundName("x_list"));
  }

  /** `pearsonr` raises on fewer than two rows. With such a statistic, an
      unphased run with the trendline on that asks for Pearson's
      coefficient, alone or first of all three, ends in its first plot when
      fewer than two rows reach the plot, before any file is written. */
  lemma FewRowsPearsonFails(obs: seq<Plot.Observation>, ref: string, alt: string, opts: Options, raises: StatisticRaises)
    requires !opts.phased && !opts.noTrendline && (opts.statistic == "pearson" || opts.statistic == "all")
    requires |obs| > 0
    requires forall p: Plot.Pairing | |p.ordinals| < 2 :: raises("pearson", p)
    ensures |Plot.PlotRows(obs, false)| < 2 ==>
      Run(obs, ref, alt, opts, raises) == Report([], Some(StatisticFailed("pearson")))
  {
    if |Plot.PlotRows(obs, false)| < 2 {
      var jobs := CorrelationJobs(opts.varId, opts.statistic);
      assert jobs[0].statistic == "pearson";
      assert raises("pearson", Plot.UnphasedPairing(obs));
      assert Draw(obs, ref, alt, opts, raises, "pearson") == Err(StatisticFailed("pearson"));
    }
  }

  /** With all three statistics a complete run writes five files. */
  lemma AllStatisticsFiles(varId: string)
    ensures JobFiles(CorrelationJobs(varId, "all")) + [CsvName(varId), MapName(varId)]
      == [ varId + ".correlation.peason.pdf", varId + ".correlation.spearman.pdf",
           varId + ".correlation.kruskal.pdf", varId + ".csv", varId + ".map.pdf" ]
  {
    assert varId + CorrelationInfix + "peason" + ".pdf" == varId + ".correlation.peason.pdf";
    assert varId + CorrelationInfix + "spearman" + ".pdf" == varId + ".correlation.spearman.pdf";
    assert varId + CorrelationInfix + "kruskal" + ".pdf" == varId + ".correlation.kruskal.pdf";
  }

  /** The Pearson file of the `all` choice is not the file the single
      `pearson` choice writes. */
  lemma PearsonFileDependsOnChoice(varId: string)
    ensures CorrelationJobs(varId, "all")[0].file != CorrelationJobs(varId, "pearson")[0].file
  {
    var a, b := CorrelationJobs(varId, "all")[0].file, CorrelationJobs(varId, "pearson")[0].file;
    var at := |varId| + |CorrelationInfix| + 2;
    assert a[at] == 'a' && b[at] == 'a';
    assert a[at + 1] == 's' && b[at + 1] == 'r';
  }

  /** The files of a complete run never overwrite one another. */
  lemma OutputNamesDistinct(varId: string, statistic: string)
    ensures var files := JobFiles(CorrelationJobs(varId, statistic)) + [CsvName(varId), MapName(varId)];
      forall i, j | 0 <= i < j < |files| :: files[i] != files[j]
  {
    var jobs := CorrelationJobs(varId, statistic);
    var files := JobFiles(jobs) + [CsvName(varId), MapName(varId)];
    var n := |varId|;
    forall k | 0 <= k < |jobs|
      ensures |files[k]| > n + 2 && files[k][n + 1] == 'c' && files[k][n + 2] == 'o'
    {
      assert files[k] == jobs[k].file;
    }
    assert CsvName(varId)[n + 1] == 'c' && CsvName(varId)[n + 2] == 's';
    assert MapName(varId)[n + 1] == 'm';
    if statistic == "all" {
      var at := n + |CorrelationInfix|;
      assert files[0][at] == 'p' && files[1][at] == 's' && files[2][at] == 'k';
    }
  }

  predicate Located(row: Sample) {
    row.latitude.Some?
  }

  lemma ObservationsConcat(a: seq<Sample>, b: seq<Sample>)
    ensures Plot.Observations(a + b) == Plot.Observations(a) + Plot.Observations(b)
  {
  }

  /** When every row without a latitude also lacks a value, dropping those
      rows first changes nothing the plot sees. */
  lemma {:induction false} UnvaluedRowsNotPlotted(t: seq<Sample>)
    requires forall i | 0 <= i < |t| && t[i].latitude.None? :: t[i].value.None?
    ensures Plot.DropMissing(Plot.Observations(t)) == Plot.DropMissing(Plot.Observations(Seqs.Filter(t, Located)))
    decreases |t|
  {
    if |t| > 0 {
      var head := if Located(t[0]) then [t[0]] else [];
      var rest := Seqs.Filter(t[1..], Located);
      assert t == [t[0]] + t[1..];
      assert Seqs.Filter(t, Located) == head + rest;
      ObservationsConcat([t[0]], t[1..]);
      ObservationsConcat(head, rest);
      Plot.DropMissingConcat(Plot.Observations([t[0]]), Plot.Observations(t[1..]));
      Plot.DropMissingConcat(Plot.Observations(head), Plot.Observations(rest));
      assert Plot.DropMissing(Plot.Observations([t[0]])) == Plot.DropMissing(Plot.Observations(head));
      UnvaluedRowsNotPlotted(t[1..]);
    }
  }

  /** The sampler answers only for ids it was asked about. */
  ghost predicate AnswersOnlyRequested(sampler: Sampler) {
    forall request: map<string, Raster.Coord> :: sampler(request).Keys <= request.Keys
  }

  /** A sample without coordinates never reaches the correlation plot, though
      it stays in the written table: with distinct sample ids and a sampler
      that answers only for requested ids, the plotted rows are those of the
      located samples alone. */
  lemma UnlocatedNeverPlotted(rows: seq<Sample>, refs: seq<GeoRef>, sampler: Sampler)
    requires UniqueIds(rows) && AnswersOnlyRequested(sampler)
    ensures var t := Enrich(rows, refs, sampler);
      Plot.DropMissing(Plot.Observations(t)) == Plot.DropMissing(Plot.Observations(Seqs.Filter(t, Located)))
  {
    var located := Join.AddLocation(rows, refs);
    assert UniqueIds(located);
    var request := Raster.CoordRequest(located);
    assert sampler(request).Keys <= request.Keys;
    Raster.NoLatitudeNoValue(located, sampler(request), 1.0);
    UnvaluedRowsNotPlotted(Enrich(rows, refs, sampler));
  }
}

=== FILE: plot.dfy ===
/** The data preparation of the correlation plot (`allele_corr_plot`): the
    null filters, the genotype categories, the unphased bucketing, the
    ordinal pairing handed to the statistics, the axis label and the caption.
    Drawing and the statistics themselves are not modelled. */
module Plot {
  import opened Wrappers
  import opened Table
  import Seqs
  import Loader
  import Numerals

  /** A row as the plot function reads it: its genotype and value cells, either possibly empty. */
  datatype Observation = Observation(genotype: Option<string>, value: Option<real>)

  /** A row that passed both null filters. */
  datatype Point = Point(genotype: string, value: real)

  /** The ordinal pairing passed to the trendline fit and the statistic:
      category index against value, row by row. */
  datatype Pairing = Pairing(ordinals: seq<int>, values: seq<real>)

  /** What the plot function produces, short of pixels: the category order
      of the x axis and its limits, the plotted rows, the axis labels, the
      title, the caption template and the ordinal pairing. */
  datatype Figure = Figure(
    categories: seq<string>,
    xMin: real,
    xMax: real,
    points: seq<Point>,
    xLabel: string,
    yLabel: string,
    title: string,
    subtitle: Option<string>,
    pairing: Option<Pairing>)

  const PhasedCategories: seq<string> := ["0|0", "0|1", "1|0", "1|1"]
  const UnphasedCategories: seq<string> := ["0/0", "0/1", "1/1"]

  /** The genotype and value columns of the sample table. */
  function Observations(rows: seq<Sample>): (obs: seq<Observation>)
    ensures |obs| == |rows|
    ensures forall i | 0 <= i < |obs| :: obs[i].genotype == Some(rows[i].genotype) && obs[i].value == rows[i].value
  {
    seq(|rows|, i requires 0 <= i < |rows| => Observation(Some(rows[i].genotype), rows[i].value))
  }

  predicate Complete(o: Observation) {
    o.genotype.Some? && o.value.Some?
  }

  function PointOf(o: Observation): Point
    requires Complete(o)
  {
    Point(o.genotype.value, o.value.value)
  }

  /** The two null filters: rows with an empty value or an empty genotype are
      removed, the others kept in order. */
  function DropMissing(obs: seq<Observation>): (pts: seq<Point>)
    ensures |pts| == |Seqs.Filter(obs, Complete)|
    ensures forall o | o in obs && Complete(o) :: PointOf(o) in pts
    ensures forall p | p in pts :: Observation(Some(p.genotype), Some(p.value)) in obs
    decreases |obs|
  {
    if |obs| == 0 then []
    else (if Complete(obs[0]) then [PointOf(obs[0])] else []) + DropMissing(obs[1..])
  }

  lemma {:induction false} DropMissingConcat(a: seq<Observation>, b: seq<Observation>)
    ensures DropMissing(a + b) == DropMissing(a) + DropMissing(b)
    decreases |a|
  {
    if |a| == 0 {
      assert a + b == b;
    } else {
      assert (a + b)[0] == a[0];
      assert (a + b)[1..] == a[1..] + b;
      DropMissingConcat(a[1..], b);
    }
  }

  /** Points read back as rows with both cells present. */
  function AsObservations(pts: seq<Point>): (obs: seq<Observation>)
    ensures |obs| == |pts|
    decreases |pts|
  {
    if |pts| == 0 then [] else [Observation(Some(pts[0].genotype), Some(pts[0].value))] + AsObservations(pts[1..])
  }

  /** The null filters keep exactly the complete rows, in input order, one
      point each: read back, the points are the rows the selection keeps. */
  lemma {:induction false} DropMissingSelects(obs: seq<Observation>)
    ensures AsObservations(DropMissing(obs)) == Seqs.Filter(obs, Complete)
    decreases |obs|
  {
    if |obs| > 0 {
      DropMissingSelects(obs[1..]);
      var pts, tail := DropMissing(obs), DropMissing(obs[1..]);
      if Complete(obs[0]) {
        var p := [PointOf(obs[0])] + tail;
        assert pts == p;
        assert p[0] == PointOf(obs[0]) && p[1..] == tail;
      } else {
        assert pts == tail;
      }
    }
  }

  /** The unphased category of a genotype text: both homozygous notations,
      all four heterozygous notations and both alternate-homozygous notations
      collapse; any other text has no category. */
  function Normalize(g: string): (c: Option<string>)
    ensures c.Some? ==> c.value in UnphasedCategories
  {
    if g == "0|0" || g == "0/0" then Some("0/0")
    else if g == "0|1" || g == "1|0" || g == "1/0" || g == "0/1" then Some("0/1")
    else if g == "1|1" || g == "1/1" then Some("1/1")
    else None
  }

  /** A call with both alleles among the reference (0) and the first alternate (1). */
  predicate Biallelic(c: Table.Call) {
    0 <= c.first <= 1 && 0 <= c.second <= 1
  }

  /** The category for a number of alternate alleles. */
  function DosageCategory(c: Table.Call): string
    requires Biallelic(c)
  {
    UnphasedCategories[c.first + c.second]
  }

  lemma NormalizeBiallelic(c: Table.Call)
    requires Biallelic(c)
    ensures Normalize(Loader.EncodeGenotype(c)) == Some(DosageCategory(c))
  {
    BiallelicText(c);
  }

  /** The text of a biallelic call: each allele is the single digit 0 or 1. */
  lemma BiallelicText(c: Table.Call)
    requires Biallelic(c)
    ensures Loader.EncodeGenotype(c) == [if c.first == 0 then '0' else '1', Loader.Separator(c.phased), if c.second == 0 then '0' else '1']
  {
    assert Numerals.IntToString(0) == "0" && Numerals.IntToString(1) == "1";
  }

  /** Each text of the normalisation table reads as a biallelic call of its category. */
  lemma NormalizedTextParses(g: string)
    requires Normalize(g).Some?
    ensures var parsed := Loader.ParseGenotype(g);
      parsed.Some? && Biallelic(parsed.value) && Normalize(g) == Some(DosageCategory(parsed.value))
  {
    var phased := g == "0|0" || g == "0|1" || g == "1|0" || g == "1|1";
    var first := if g == "0|0" || g == "0|1" || g == "0/0" || g == "0/1" then 0 else 1;
    var second := if g == "0|0" || g == "1|0" || g == "0/0" || g == "1/0" then 0 else 1;
    var c := Table.Call(first, second, phased);
    BiallelicText(c);
    assert Loader.EncodeGenotype(c) == g;
    Loader.GenotypeRoundTrip(c);
    NormalizeBiallelic(c);
  }

  /** Each biallelic call's text is in the normalisation table, under its category. */
  lemma BiallelicTextNormalizes(g: string)
    ensures var parsed := Loader.ParseGenotype(g);
      parsed.Some? && Biallelic(parsed.value) ==> Normalize(g) == Some(DosageCategory(parsed.value))
  {
    var parsed := Loader.ParseGenotype(g);
    if parsed.Some? && Biallelic(parsed.value) {
      Loader.GenotypeCanonical(g, parsed.value);
      NormalizeBiallelic(parsed.value);
    }
  }

  /** The normalisation table is exactly "read the call; if both alleles are
      0 or 1, the category of its alternate-allele count, whatever the phase". */
  lemma NormalizeIsDosage(g: string)
    ensures Normalize(g) == match Loader.ParseGenotype(g)
      case Some(c) => if Biallelic(c) then Some(DosageCategory(c)) else None
      case None => None
  {
    if Normalize(g).Some? {
      NormalizedTextParses(g);
    }
    BiallelicTextNormalizes(g);
  }

  predicate Recognised(p: Point) {
    Normalize(p.genotype).Some?
  }

  /** The rows of one unphased category, in input order, relabelled with the category. */
  function Group(pts: seq<Point>, c: string): (r: seq<Point>)
    ensures |r| <= |pts|
    ensures forall k | 0 <= k < |r| :: r[k].genotype == c
    decreases |pts|
  {
    if |pts| == 0 then []
    else (if Normalize(pts[0].genotype) == Some(c) then [Point(c, pts[0].value)] else []) + Group(pts[1..], c)
  }

  function InClass(c: string): Point -> bool {
    (p: Point) => Normalize(p.genotype) == Some(c)
  }

  function Relabel(pts: seq<Point>, c: string): seq<Point> {
    seq(|pts|, i requires 0 <= i < |pts| => Point(c, pts[i].value))
  }

  /** A category's group is the selection of the rows normalising to it, relabelled. */
  lemma {:induction false} GroupIsSelection(pts: seq<Point>, c: string)
    ensures Group(pts, c) == Relabel(Seqs.Filter(pts, InClass(c)), c)
    decreases |pts|
  {
    if |pts| > 0 {
      GroupIsSelection(pts[1..], c);
    }
  }

  lemma {:induction false} GroupSizes(pts: seq<Point>)
    ensures |Group(pts, "0/0")| + |Group(pts, "0/1")| + |Group(pts, "1/1")| == |Seqs.Filter(pts, Recognised)|
    decreases |pts|
  {
    if |pts| > 0 {
      GroupSizes(pts[1..]);
    }
  }

  /** The unphased bucketing: all `0/0` rows, then all `0/1` rows, then all
      `1/1` rows, each group in input order; unrecognised genotypes are dropped. */
  function Bucket(pts: seq<Point>): (r: seq<Point>)
    ensures |r| == |Seqs.Filter(pts, Recognised)|
    ensures forall k | 0 <= k < |r| :: r[k].genotype in UnphasedCategories
  {
    GroupSizes(pts);
    Group(pts, "0/0") + Group(pts, "0/1") + Group(pts, "1/1")
  }

  /** The position of an unphased category on the x axis: `0/0` is 0, `0/1` is 1, `1/1` is 2. */
  function Ordinal(c: string): (k: nat)
    requires c in UnphasedCategories
    ensures k < |UnphasedCategories| && UnphasedCategories[k] == c
  {
    if c == "0/0" then 0 else if c == "0/1" then 1 else 2
  }

  /** The bucketed rows are ordered by category. */
  lemma BucketOrdered(pts: seq<Point>)
    ensures forall i, j | 0 <= i < j < |Bucket(pts)| ::
      Ordinal(Bucket(pts)[i].genotype) <= Ordinal(Bucket(pts)[j].genotype)
  {
    var a, b, c := Group(pts, "0/0"), Group(pts, "0/1"), Group(pts, "1/1");
    var r := Bucket(pts);
    assert r == a + b + c;
    forall i | 0 <= i < |r|
      ensures Ordinal(r[i].genotype) == if i < |a| then 0 else if i < |a| + |b| then 1 else 2
    {
      if i < |a| { assert r[i] == a[i]; }
      else if i < |a| + |b| { assert r[i] == b[i - |a|]; }
      else { assert r[i] == c[i - |a| - |b|]; }
    }
  }

  function Labelled(c: string): Point -> bool {
    (p: Point) => p.genotype == c
  }

  /** Selecting a category's label from its own group keeps the group. */
  lemma FilterGroupSame(pts: seq<Point>, c: string)
    ensures Seqs.Filter(Group(pts, c), Labelled(c)) == Group(pts, c)
  {
    Seqs.FilterAll(Group(pts, c), Labelled(c));
  }

  /** Selecting a category's label from another category's group keeps nothing. */
  lemma FilterGroupOther(pts: seq<Point>, g: string, c: string)
    requires g != c
    ensures Seqs.Filter(Group(pts, g), Labelled(c)) == []
  {
    Seqs.FilterNone(Group(pts, g), Labelled(c));
  }

  /** Taking one category's rows back out of the bucketing gives exactly that
      category's input rows in input order: with the ordering above, this
      determines the bucketing completely. */
  lemma BucketSelection(pts: seq<Point>, p: Point -> bool)
    ensures Seqs.Filter(Bucket(pts), p)
      == Seqs.Filter(Group(pts, "0/0"), p) + Seqs.Filter(Group(pts, "0/1"), p) + Seqs.Filter(Group(pts, "1/1"), p)
  {
    var a, b, d := Group(pts, "0/0"), Group(pts, "0/1"), Group(pts, "1/1");
    assert Bucket(pts) == (a + b) + d;
    Seqs.FilterConcat(a + b, d, p);
    Seqs.FilterConcat(a, b, p);
  }

  /** The three unphased categories are different texts. */
  lemma CategoriesDistinct()
    ensures "0/0" != "0/1" && "0/0" != "1/1" && "0/1" != "1/1"
  {
    assert "0/0"[2] != "0/1"[2] && "0/0"[0] != "1/1"[0] && "0/1"[0] != "1/1"[0];
  }

  lemma PickGroup(pts: seq<Point>, c: string)
    requires c in UnphasedCategories
    ensures var p := Labelled(c);
      Seqs.Filter(Group(pts, "0/0"), p) + Seqs.Filter(Group(pts, "0/1"), p) + Seqs.Filter(Group(pts, "1/1"), p)
        == Group(pts, c)
  {
    CategoriesDistinct();
    assert c == "0/0" || c == "0/1" || c == "1/1";
    var p := Labelled(c);
    var fa, fb, fd := Seqs.Filter(Group(pts, "0/0"), p), Seqs.Filter(Group(pts, "0/1"), p), Seqs.Filter(Group(pts, "1/1"), p);
    if c == "0/0" {
      FilterGroupSame(pts, "0/0");
      FilterGroupOther(pts, "0/1", "0/0");
      FilterGroupOther(pts, "1/1", "0/0");
    } else if c == "0/1" {
      FilterGroupOther(pts, "0/0", "0/1");
      FilterGroupSame(pts, "0/1");
      FilterGroupOther(pts, "1/1", "0/1");
    } else {
      FilterGroupOther(pts, "0/0", "1/1");
      FilterGroupOther(pts, "0/1", "1/1");
      FilterGroupSame(pts, "1/1");
    }
    PickOne(fa, fb, fd, Group(pts, c));
  }

  lemma PickOne(a: seq<Point>, b: seq<Point>, d: seq<Point>, target: seq<Point>)
    requires || (a == target && b == [] && d == [])
             || (a == [] && b == target && d == [])
             || (a == [] && b == [] && d == target)
    ensures a + b + d == target
  {
    if a == target && b == [] && d == [] {
      assert a + [] + [] == a;
    } else if a == [] && b == target && d == [] {
      assert [] + b + [] == b;
    } else {
      assert [] + [] + d == d;
    }
  }

  lemma BucketRegroups(pts: seq<Point>, c: string)
    requires c in UnphasedCategories
    ensures Seqs.Filter(Bucket(pts), Labelled(c)) == Relabel(Seqs.Filter(pts, InClass(c)), c)
  {
    BucketSelection(pts, Labelled(c));
    PickGroup(pts, c);
    GroupIsSelection(pts, c);
  }

  /** The category index and the value of every row, in row order (the
      `replace` calls on the genotype column and the value column). */
  function OrdinalPairing(pts: seq<Point>): (p: Pairing)
    requires forall k | 0 <= k < |pts| :: pts[k].genotype in UnphasedCategories
    ensures |p.ordinals| == |pts| && |p.values| == |pts|
    ensures forall k | 0 <= k < |pts| ::
      0 <= p.ordinals[k] < |UnphasedCategories| && UnphasedCategories[p.ordinals[k]] == pts[k].genotype
      && p.values[k] == pts[k].value
  {
    Pairing(seq(|pts|, k requires 0 <= k < |pts| => Ordinal(pts[k].genotype) as int),
            seq(|pts|, k requires 0 <= k < |pts| => pts[k].value))
  }

  /** On bucketed rows the ordinals never decrease. */
  lemma PairingOrdered(pts: seq<Point>)
    ensures var p := OrdinalPairing(Bucket(pts));
      forall i, j | 0 <= i < j < |p.ordinals| :: p.ordinals[i] <= p.ordinals[j]
  {
    BucketOrdered(pts);
  }

  /** The x-axis label: it names both alleles when both are given, and is the
      bare word otherwise. */
  function XLabel(ref: Option<string>, alt: Option<string>): (text: string)
    ensures |text| >= 8 && text[..8] == "Genotype"
    ensures text == "Genotype" <==> ref.None? || alt.None?
    ensures ref.Some? && alt.Some? ==>
      && |text| == |ref.value| + |alt.value| + 23
      && text[8..15] == " (Ref: "
      && text[15..15 + |ref.value|] == ref.value
      && text[15 + |ref.value|..22 + |ref.value|] == ", Alt: "
      && text[22 + |ref.value|..|text| - 1] == alt.value
      && text[|text| - 1] == ')'
  {
    if ref.Some? && alt.Some? then
      "Genotype (Ref: " + ref.value + ", Alt: " + alt.value + ")"
    else "Genotype"
  }

  predicate IsStatistic(statistic: string) {
    statistic == "pearson" || statistic == "spearman" || statistic == "kruskal"
  }

  /** The upper-case form of a lower-case ASCII letter; other characters are kept. */
  function Capital(ch: char): char {
    if 'a' <= ch <= 'z' then (ch as int - 32) as char else ch
  }

  /** The two numbers of a caption, left as their format directives. */
  const CaptionNumbers: string := ": %.4e, p-value: %.4e"

  /** The word after a statistic's name in its caption. */
  function CaptionKind(statistic: string): string {
    if statistic == "kruskal" then " statistic" else " correlation"
  }

  /** The caption a statistic's name gives: the name capitalised, its kind
      and the two numbers. */
  function CaptionFor(statistic: string): string
    requires |statistic| > 0
  {
    [Capital(statistic[0])] + statistic[1..] + CaptionKind(statistic) + CaptionNumbers
  }

  lemma PearsonCaption()
    ensures CaptionFor("pearson") == "Pearson" + " correlation" + CaptionNumbers
  {
    assert "pearson"[1..] == "earson";
    assert [Capital('p')] + "earson" == "Pearson";
  }

  lemma SpearmanCaption()
    ensures CaptionFor("spearman") == "Spearman" + " correlation" + CaptionNumbers
  {
    assert "spearman"[1..] == "pearman";
    assert [Capital('s')] + "pearman" == "Spearman";
  }

  lemma KruskalCaption()
    ensures CaptionFor("kruskal") == "Kruskal" + " statistic" + CaptionNumbers
  {
    assert "kruskal"[1..] == "ruskal";
    assert [Capital('k')] + "ruskal" == "Kruskal";
  }

  /** The caption template of each statistic; the two numbers are left as
      their format directives. Any other choice has no caption. */
  function SubtitleTemplate(statistic: string): (s: Option<string>)
    ensures s.Some? <==> IsStatistic(statistic)
    ensures s.Some? ==> s.value == CaptionFor(statistic)
  {
    if statistic == "pearson" then PearsonCaption(); Some("Pearson" + " correlation" + CaptionNumbers)
    else if statistic == "spearman" then SpearmanCaption(); Some("Spearman" + " correlation" + CaptionNumbers)
    else if statistic == "kruskal" then KruskalCaption(); Some("Kruskal" + " statistic" + CaptionNumbers)
    else None
  }

  /** What the unphased bucketing guarantees: every row has a category, the
      rows come in category order, and each category holds exactly its input
      rows, in input order. */
  lemma BucketFacts(pts: seq<Point>)
    ensures forall k | 0 <= k < |Bucket(pts)| :: Bucket(pts)[k].genotype in UnphasedCategories
    ensures forall i, j | 0 <= i < j < |Bucket(pts)| :: Ordinal(Bucket(pts)[i].genotype) <= Ordinal(Bucket(pts)[j].genotype)
    ensures forall c | c in UnphasedCategories ::
      Seqs.Filter(Bucket(pts), Labelled(c)) == Relabel(Seqs.Filter(pts, InClass(c)), c)
  {
    BucketOrdered(pts);
    forall c | c in UnphasedCategories
      ensures Seqs.Filter(Bucket(pts), Labelled(c)) == Relabel(Seqs.Filter(pts, InClass(c)), c)
    {
      BucketRegroups(pts, c);
    }
  }

  /** The rows drawn: after the null filters, as they are when phased,
      bucketed when not. Phased, every complete row is kept; unphased, the
      rows come in category order and each category holds exactly its
      complete input rows, in input order. */
  function PlotRows(obs: seq<Observation>, phased: bool): (r: seq<Point>)
    ensures phased ==>
      && |r| == |Seqs.Filter(obs, Complete)|
      && forall p | p in r :: Observation(Some(p.genotype), Some(p.value)) in obs
    ensures phased ==> AsObservations(r) == Seqs.Filter(obs, Complete)
    ensures !phased ==> forall k | 0 <= k < |r| :: r[k].genotype in UnphasedCategories
    ensures !phased ==> forall i, j | 0 <= i < j < |r| :: Ordinal(r[i].genotype) <= Ordinal(r[j].genotype)
    ensures !phased ==> forall c | c in UnphasedCategories ::
      Seqs.Filter(r, Labelled(c)) == Relabel(Seqs.Filter(DropMissing(obs), InClass(c)), c)
  {
    var kept := DropMissing(obs);
    DropMissingSelects(obs);
    if phased then kept
    else
      BucketFacts(kept);
      Bucket(kept)
  }

  /** The pairing an unphased plot hands to the statistic: the bucketed rows
      that passed both null filters. */
  function UnphasedPairing(obs: seq<Observation>): Pairing {
    OrdinalPairing(PlotRows(obs, false))
  }

  /** `allele_corr_plot`. Phased: four categories and the title alone.
      Unphased: three categories, the caption of the chosen statistic and the
      ordinal pairing; the pairing is bound only when the trendline is on, so
      without it the statistic call fails on the unbound name, and a choice
      outside the three statistics leaves the caption itself unbound. The
      statistic functions are foreign: `raises` says whether the chosen one
      raises on the pairing it is given (as `pearsonr` does on fewer than two
      rows), which ends the plot before it is saved. */
  function CorrelationPlot(
    obs: seq<Observation>, ref: Option<string>, alt: Option<string>, phased: bool,
    trendline: bool, yLabel: string, statistic: string, title: string,
    raises: (string, Pairing) -> bool): (r: Result<Figure, Failure>)
    ensures r.Ok? <==> phased || (IsStatistic(statistic) && trendline && !raises(statistic, UnphasedPairing(obs)))
    ensures !phased && IsStatistic(statistic) && !trendline ==> r == Err(UnboundName("x_list"))
    ensures !phased && IsStatistic(statistic) && trendline && raises(statistic, UnphasedPairing(obs)) ==>
      r == Err(StatisticFailed(statistic))
    ensures !phased && !IsStatistic(statistic) ==> r == Err(UnboundName("subtitile"))
    ensures r.Ok? ==>
      && r.value.categories == (if phased then PhasedCategories else UnphasedCategories)
      && r.value.xMin == -0.5
      && r.value.xMax == |r.value.categories| as real - 0.5
      && r.value.points == PlotRows(obs, phased)
      && r.value.subtitle == (if phased then None else SubtitleTemplate(statistic))
      && r.value.xLabel == XLabel(ref, alt) && r.value.yLabel == yLabel && r.value.title == title
    ensures r.Ok? && phased ==> r.value.pairing.None?
    ensures r.Ok? && !phased ==>
      && r.value.pairing == Some(UnphasedPairing(obs))
      && |r.value.pairing.value.ordinals| == |r.value.points|
      && |r.value.pairing.value.values| == |r.value.points|
      && forall k | 0 <= k < |r.value.points| ::
        && 0 <= r.value.pairing.value.ordinals[k] < |UnphasedCategories|
        && UnphasedCategories[r.value.pairing.value.ordinals[k]] == r.value.points[k].genotype
        && r.value.pairing.value.values[k] == r.value.points[k].value
  {
    var xLabel := XLabel(ref, alt);
    if phased then
      Ok(Figure(PhasedCategories, -0.5, |PhasedCategories| as real - 0.5, PlotRows(obs, true), xLabel, yLabel, title, None, None))
    else
      var pts := PlotRows(obs, false);
      match SubtitleTemplate(statistic)
      case None => Err(UnboundName("subtitile"))
      case Some(caption) =>
        if !trendline then Err(UnboundName("x_list"))
        else if raises(statistic, OrdinalPairing(pts)) then Err(StatisticFailed(statistic))
        else Ok(Figure(UnphasedCategories, -0.5, |UnphasedCategories| as real - 0.5, pts, xLabel, yLabel, title,
                       Some(caption), Some(OrdinalPairing(pts))))
  }
}

=== FILE: raster.dfy ===
/** The raster pass (`add_raster_value`): collect the coordinates of every
    located row into one request, and store the scaled answer per row. The
    sampling call itself is foreign; its answer is an input. */
module Raster {
  import opened Wrappers
  import opened Table

  /** The coordinate pair a row contributes to the request. */
  datatype Coord = Coord(latitude: real, longitude: Option<real>)

  /** The request built before the sampling call: one entry per sample id of
      a row with a latitude, a later row overwriting an earlier one with the
      same id. The longitude is passed along as it is, even when empty. */
  function CoordRequest(rows: seq<Sample>): (m: map<string, Coord>)
    ensures m.Keys == set i | 0 <= i < |rows| && rows[i].latitude.Some? :: rows[i].sampleId
    decreases |rows|
  {
    if |rows| == 0 then map[]
    else
      var init := rows[..|rows| - 1];
      var last := rows[|rows| - 1];
      var m := CoordRequest(init);
      ghost var keys := set i | 0 <= i < |rows| && rows[i].latitude.Some? :: rows[i].sampleId;
      ghost var initKeys := set i | 0 <= i < |init| && init[i].latitude.Some? :: init[i].sampleId;
      if last.latitude.Some? then
        assert keys == initKeys + {last.sampleId} by {
          forall id | id in keys ensures id in initKeys + {last.sampleId} {
            var i :| 0 <= i < |rows| && rows[i].latitude.Some? && rows[i].sampleId == id;
            if i < |init| { assert init[i] == rows[i]; }
          }
          forall id | id in initKeys ensures id in keys {
            var i :| 0 <= i < |init| && init[i].latitude.Some? && init[i].sampleId == id;
            assert rows[i] == init[i];
          }
        }
        m[last.sampleId := Coord(last.latitude.value, last.longitude)]
      else
        assert keys == initKeys by {
          forall id | id in keys ensures id in initKeys {
            var i :| 0 <= i < |rows| && rows[i].latitude.Some? && rows[i].sampleId == id;
            assert i < |init| && init[i] == rows[i];
          }
          forall id | id in initKeys ensures id in keys {
            var i :| 0 <= i < |init| && init[i].latitude.Some? && init[i].sampleId == id;
            assert rows[i] == init[i];
          }
        }
        m
  }

  /** Each located row's coordinates reach the request unless a later row
      with the same sample id overwrites them. */
  lemma {:induction false} RequestHoldsLatest(rows: seq<Sample>, i: nat)
    requires i < |rows| && rows[i].latitude.Some?
    requires forall j | i < j < |rows| && rows[j].sampleId == rows[i].sampleId :: rows[j].latitude.None?
    ensures rows[i].sampleId in CoordRequest(rows)
    ensures CoordRequest(rows)[rows[i].sampleId] == Coord(rows[i].latitude.value, rows[i].longitude)
    decreases |rows|
  {
    var init := rows[..|rows| - 1];
    if i < |rows| - 1 {
      assert init[i] == rows[i];
      RequestHoldsLatest(init, i);
    }
  }

  /** The value a row receives: the sampled answer times the factor when the
      answer holds one for its id, missing otherwise. */
  function Scaled(lookup: map<string, Option<real>>, id: string, factor: real): Option<real> {
    if id in lookup && lookup[id].Some? then Some(lookup[id].value * factor) else None
  }

  /** `add_raster_value` given the sampler's answer `lookup`: the same rows
      in the same order, only the value column replaced. */
  function AddRasterValue(rows: seq<Sample>, lookup: map<string, Option<real>>, factor: real): (r: seq<Sample>)
    ensures |r| == |rows|
    ensures forall i | 0 <= i < |r| :: r[i] == rows[i].(value := r[i].value)
    ensures forall i | 0 <= i < |r| ::
      r[i].value.Some? <==> rows[i].sampleId in lookup && lookup[rows[i].sampleId].Some?
    ensures forall i | 0 <= i < |r| && r[i].value.Some? ::
      r[i].value.value == lookup[rows[i].sampleId].value * factor
  {
    seq(|rows|, i requires 0 <= i < |rows| => rows[i].(value := Scaled(lookup, rows[i].sampleId, factor)))
  }

  /** With distinct sample ids and a sampler that answers only for requested
      ids, a row without a latitude is never given a value. */
  lemma NoLatitudeNoValue(rows: seq<Sample>, lookup: map<string, Option<real>>, factor: real)
    requires UniqueIds(rows)
    requires lookup.Keys <= CoordRequest(rows).Keys
    ensures forall i | 0 <= i < |rows| && rows[i].latitude.None? :: AddRasterValue(rows, lookup, factor)[i].value.None?
  {
    var r := AddRasterValue(rows, lookup, factor);
    forall i | 0 <= i < |rows| && rows[i].latitude.None?
      ensures r[i].value.None?
    {
      var id := rows[i].sampleId;
      forall j | 0 <= j < |rows| && rows[j].latitude.Some?
        ensures rows[j].sampleId != id
      {
        assert j != i;
      }
      assert id !in CoordRequest(rows).Keys;
      assert id !in lookup;
    }
  }
}

=== FILE: seqs.dfy ===
/** Order-preserving selection over sequences, the shape of every boolean-mask
    row selection the program performs on its tables. */
module Seqs {

  /** The elements of `s` that satisfy `p`, in their original order. */
  function Filter<T>(s: seq<T>, p: T -> bool): (r: seq<T>)
    ensures |r| <= |s|
    ensures forall x :: x in r ==> x in s && p(x)
    ensures forall x :: x in s && p(x) ==> x in r
  {
    if |s| == 0 then [] else (if p(s[0]) then [s[0]] else []) + Filter(s[1..], p)
  }

  /** Selection distributes over concatenation: it never reorders across the seam. */
  lemma {:induction false} FilterConcat<T>(a: seq<T>, b: seq<T>, p: T -> bool)
    ensures Filter(a + b, p) == Filter(a, p) + Filter(b, p)
    decreases |a|
  {
    if |a| == 0 {
      assert a + b == b;
    } else {
      assert (a + b)[1..] == a[1..] + b;
      FilterConcat(a[1..], b, p);
    }
  }

  /** Selecting with a predicate every element satisfies changes nothing. */
  lemma {:induction false} FilterAll<T>(s: seq<T>, p: T -> bool)
    requires forall i | 0 <= i < |s| :: p(s[i])
    ensures Filter(s, p) == s
    decreases |s|
  {
    if |s| > 0 {
      FilterAll(s[1..], p);
    }
  }

  /** Selecting with a predicate no element satisfies gives nothing. */
  lemma {:induction false} FilterNone<T>(s: seq<T>, p: T -> bool)
    requires forall i | 0 <= i < |s| :: !p(s[i])
    ensures Filter(s, p) == []
    decreases |s|
  {
    if |s| > 0 {
      FilterNone(s[1..], p);
    }
  }
}

=== FILE: strings.dfy ===
/** Python's `str.split(sep)` with an explicit one-character separator, and
    its inverse `sep.join(parts)`. */
module Strings {

  /** The pieces of `s` between occurrences of `sep`; an empty string gives one
      empty piece, and two adjacent separators give an empty piece between them. */
  function Split(s: string, sep: char): (parts: seq<string>)
    ensures |parts| > 0
    ensures forall k | 0 <= k < |parts| :: sep !in parts[k]
    decreases |s|
  {
    if |s| == 0 then [""]
    else
      var init := Split(s[..|s| - 1], sep);
      if s[|s| - 1] == sep then init + [""]
      else init[..|init| - 1] + [init[|init| - 1] + [s[|s| - 1]]]
  }

  /** The pieces glued back together with `sep` between consecutive pieces. */
  function Join(parts: seq<string>, sep: char): string
    requires |parts| > 0
    decreases |parts|
  {
    if |parts| == 1 then parts[0]
    else Join(parts[..|parts| - 1], sep) + [sep] + parts[|parts| - 1]
  }

  /** Joining the pieces gives back the split string. */
  lemma {:induction false} JoinSplit(s: string, sep: char)
    ensures Join(Split(s, sep), sep) == s
    decreases |s|
  {
    if |s| > 0 {
      var pre, c := s[..|s| - 1], s[|s| - 1];
      var init := Split(pre, sep);
      JoinSplit(pre, sep);
      assert s == pre + [c];
      if c == sep {
        var parts := init + [""];
        assert Split(s, sep) == parts;
        assert parts[..|parts| - 1] == init;
        assert Join(parts, sep) == Join(init, sep) + [sep] + "";
      } else {
        var parts := init[..|init| - 1] + [init[|init| - 1] + [c]];
        assert Split(s, sep) == parts;
        if |init| == 1 {
          assert Join(parts, sep) == init[0] + [c];
        } else {
          assert parts[..|parts| - 1] == init[..|init| - 1];
          assert Join(parts, sep) == Join(init[..|init| - 1], sep) + [sep] + (init[|init| - 1] + [c]);
          assert Join(init, sep) == Join(init[..|init| - 1], sep) + [sep] + init[|init| - 1];
        }
      }
    }
  }

  /** A string without the separator is a single piece. */
  lemma {:induction false} SplitWithoutSeparator(s: string, sep: char)
    requires sep !in s
    ensures Split(s, sep) == [s]
    decreases |s|
  {
    if |s| > 0 {
      assert s[..|s| - 1] + [s[|s| - 1]] == s;
      SplitWithoutSeparator(s[..|s| - 1], sep);
    }
  }

  /** Appending a separator and a separator-free piece appends exactly that piece. */
  lemma {:induction false} SplitAppend(x: string, sep: char, y: string)
    requires sep !in y
    ensures Split(x + [sep] + y, sep) == Split(x, sep) + [y]
    decreases |y|
  {
    var s := x + [sep] + y;
    if |y| == 0 {
      assert s[..|s| - 1] == x;
    } else {
      var y' := y[..|y| - 1];
      assert s[..|s| - 1] == x + [sep] + y';
      assert y' + [y[|y| - 1]] == y;
      SplitAppend(x, sep, y');
    }
  }

  /** Splitting a join of separator-free pieces gives back the pieces. */
  lemma {:induction false} SplitJoin(parts: seq<string>, sep: char)
    requires |parts| > 0
    requires forall k | 0 <= k < |parts| :: sep !in parts[k]
    ensures Split(Join(parts, sep), sep) == parts
    decreases |parts|
  {
    if |parts| == 1 {
      SplitWithoutSeparator(parts[0], sep);
    } else {
      var init, last := parts[..|parts| - 1], parts[|parts| - 1];
      assert forall k | 0 <= k < |init| :: init[k] == parts[k];
      SplitJoin(init, sep);
      assert Join(parts, sep) == Join(init, sep) + [sep] + last;
      SplitAppend(Join(init, sep), sep, last);
      assert init + [last] == parts;
    }
  }
}

=== FILE: table.dfy ===
/** The records the program passes between its stages. */
module Table {
  import opened Wrappers

  /** One sample's call at a variant: two allele indices (-1 for a missing
      allele) and the phase indicator. */
  datatype Call = Call(first: int, second: int, phased: bool)

  /** One record of the variant-call file, as the file reader hands it over:
      its ID, reference allele, alternate alleles and one call per sample. */
  datatype VariantRecord = VariantRecord(id: string, ref: string, alts: seq<string>, calls: seq<Call>)

  /** One row of the reference table: a sample and its coordinates, either of
      which may be an empty cell. */
  datatype GeoRef = GeoRef(sampleId: string, latitude: Option<real>, longitude: Option<real>)

  /** One row of the sample table. The loader fills the first three columns;
      the location and raster passes fill the other three, leaving a cell
      `None` where geogenoplot leaves NaN. */
  datatype Sample = Sample(
    sampleId: string,
    genotype: string,
    phased: bool,
    latitude: Option<real>,
    longitude: Option<real>,
    value: Option<real>)

  /** The exceptions the modelled code raises. */
  datatype Failure =
    | VariantNotFound(id: string)   // the ValueError of the loader
    | IndexOutOfRange               // an IndexError on the chosen record
    | UnboundName(name: string)     // an UnboundLocalError in the plot function
    | InvalidLiteral(text: string)  // a ValueError from int() on a limit
    | MissingColumn(name: string)   // a KeyError on a column the table never got
    | StatisticFailed(statistic: string)  // an exception raised inside the statistic call

  /** No two rows share a sample id, as the sample list of a variant-call file guarantees. */
  predicate UniqueIds(rows: seq<Sample>) {
    forall i, j | 0 <= i < j < |rows| :: rows[i].sampleId != rows[j].sampleId
  }
}

=== FILE: wrappers.dfy ===
/** Optional values and results with an error, as used throughout the model.
    A missing cell of the sample table (a NaN in geogenoplot's tables) is `None`. */
module Wrappers {

  datatype Option<+T> = None | Some(value: T)

  datatype Result<+T, +E> = Ok(value: T) | Err(error: E)
}
